=== FILE: README.md ===
# snakeer's resolver and installer, modelled in Dafny

snakeer is a small Python package manager. A project names the packages it
wants, each with a version spec, in `project_packages.json`. Packages come
from a registry laid out as a GitHub repository (`packages/<name>/<version>/`
holding the release archive). They are unpacked into
`snakeer_modules/<name>`, where the unpacked package's own `metadata.json`
declares its dependencies, and `require(name)` loads them from there. This
project models that core as pure functions over values:

- `utils.dfy` (module `Utils`). Version specs:
  - `parse_version_spec` turns a spec into an operator and a version;
  - `version_satisfies` decides `latest`, exact, `>=`, `^` and `~`;
  - `find_best_version` picks from a list.
- `config.dfy` (module `Config`). The configuration document:
  - loading, with its defaults filled in;
  - the requested-specs table and the installed-versions table, as maps.
- `files.dfy` (module `Files`). A directory tree as a listing sequence of named files and directories.
- `installer.dfy` (module `Installer`). `install_package` and `_install_dependencies`, written as a state-passing recursion:
  - the registry is a `Registry` value;
  - the world is a `World` value: the two tables, the package directories, and logs of the registry requests and of `set_installed_version` calls;
  - also version listing, archive choice, wipe-and-unpack with the single-root hoist, `install_all`, `remove_package`, `update_package` and `update_all`.
- `publish.dfy` (module `Publish`). Which files `publish` puts into the archive.
- `cli.dfy` (module `Cli`). The `name@version` split of `add`, and what the `install`, `add`, `remove` and `update` commands call, in that order.
- `loader.dfy` (module `Loader`). The entry file `require` picks; `require_all`; `reload` over a module cache that plays the part of `sys.modules`.
- `common.dfy` and `text.dfy`. `Option`/`Result`, and the Python string builtins the source relies on (`strip`, `startswith`, `endswith`, `split`).
- `utils_examples.dfy` and `installer_examples.dfy`. Worked examples proved against the model:
  - the version rules on concrete versions;
  - an install of two packages that depend on each other.

The registry and the file system are parameters. Nothing here reaches the network or a disk.

Termination of the install recursion does not rest on the `installed` list
of `_install_dependencies`. That list starts empty on every call, so its
guard never fires. It rests on two facts:

- `install_package` records a version before it walks the dependencies;
- a dependency is only installed when it has no installed entry.

The measure is the number of registry names that are not yet installed.

## Model

| member | source | states |
|---|---|---|
| Utils.ParseVersionSpec | snakeer/utils.py:12-30 | The spec is stripped first. `>=`, `^` and `~` are tried as prefixes in that order, then the literal `latest`; anything else is an exact spec holding the whole stripped text. For a prefix operator, the operator followed by the version gives back the stripped text; `latest` carries an empty version. |
| Utils.FormatParse | snakeer/utils.py:17-30 | Parsing loses nothing but surrounding whitespace: writing the parsed spec back gives the stripped input, and the parsed spec is canonical. |
| Utils.ParseFormat | snakeer/utils.py:12-30 | Every canonical spec, written out and parsed again, is itself. |
| Utils.Pad | snakeer/utils.py:48-52 | Zero padding keeps the components, adds zeros only at the end, and stops at three components or the original length. |
| Utils.Key | snakeer/utils.py:74-78 | A version's key is its dot-separated components in order, followed by zeros up to three components; a longer version keeps all of them. |
| Utils.VersionSatisfies | snakeer/utils.py:32-65 | `latest` accepts every version. An exact spec accepts exactly the raw string of the stripped spec. A ranged spec accepts only keys at or above its own. |
| Utils.SameRelease | snakeer/utils.py:57-63 | A version `^w` accepts has the major component of `w`; one `~w` accepts also has its minor component. |
| Utils.SatisfiesByOperator | snakeer/utils.py:36-55 | `latest` accepts every version. An exact spec accepts exactly the versions equal as raw strings to the stripped spec. A ranged spec accepts only versions whose padded key is at least the spec's. |
| Utils.RangedSameKey | snakeer/utils.py:44-63 | `>=`, `^` and `~` see a version only through its padded key: two versions with the same key are accepted or rejected together. |
| Utils.SatisfiesOwnSpec | snakeer/utils.py:38-63 | A numeric version satisfies every spec made of itself under any operator. |
| Utils.TildeCaretAtLeast | snakeer/utils.py:54-63 | `~w` accepts only what `^w` accepts, and `^w` only what `>=w` accepts. |
| Utils.AtLeastUpward | snakeer/utils.py:54-55 | `>=w` is closed upwards in key order. |
| Utils.FindBestVersion | snakeer/utils.py:67-86 | None exactly when no entry satisfies the spec. Otherwise the result is an entry of the list that satisfies the spec, no satisfying entry has a larger padded key, and no earlier satisfying entry has the same key. These are the stable descending sort followed by the first match. |
| Utils.BestKeyIgnoresOrder | snakeer/utils.py:80-84 | Reordering or duplicating the list changes neither whether a version is found nor the padded key of the one found. |
| UtilsExamples.ExactIsNotPadded | snakeer/utils.py:41-42 | `1.0` does not satisfy the exact spec `1.0.0`. |
| UtilsExamples.AtLeastPads | snakeer/utils.py:48-55 | `1.2` satisfies `>=1.2.0`. |
| UtilsExamples.AtLeastLexicographic | snakeer/utils.py:54-55 | `2.0.0` satisfies `>=1.9.9`. |
| UtilsExamples.CaretAcceptsMinor | snakeer/utils.py:57-59 | `^1.2.0` accepts `1.9.9`. |
| UtilsExamples.CaretRejectsMajor | snakeer/utils.py:57-59 | `^1.2.0` rejects `2.0.0`. |
| UtilsExamples.CaretRejectsLower | snakeer/utils.py:57-59 | `^1.2.0` rejects `0.9.9`. |
| UtilsExamples.TildeAcceptsPatch | snakeer/utils.py:61-63 | `~1.2.0` accepts `1.2.5`. |
| UtilsExamples.TildeRejectsMinor | snakeer/utils.py:61-63 | `~1.2.0` rejects `1.3.0`. |
| UtilsExamples.FindBestAtLeast | snakeer/utils.py:67-86 | Of `1.0.0`, `2.0.0` and `1.5.0`, `>=1.2.0` picks `2.0.0`. |
| UtilsExamples.FindBestExactMissing | snakeer/utils.py:67-86 | Of `1.0.0` alone, the exact spec `2.0.0` picks nothing. |
| Config.FillDefaults | snakeer/config.py:37-39 | Every absent key gets its default, and every present key keeps its value. |
| Config.Load | snakeer/config.py:28-48 | A parsed file keeps all its keys and values and gains the missing defaults. A missing or unreadable file gives exactly the defaults. |
| Config.LoadIdempotent | snakeer/config.py:33-40 | Loading a loaded document changes nothing. |
| Config.DefaultStore | snakeer/config.py:15-20 | Without a readable file, both dependency tables are empty. |
| Config.StoreOf | snakeer/config.py:78-92 | The dependency operations index both tables directly. The tables are read exactly when both keys are present and hold objects; the model covers only such documents. |
| Config.StoreRoundTrip | snakeer/config.py:78-99 | The tables written back are the tables read, so the dependency operations change nothing else in the document. |
| Config.GetRequestedVersion | snakeer/config.py:101-103 | A plain lookup: absent exactly for names the requested table lacks. |
| Config.GetInstalledPackage | snakeer/config.py:105-107 | A plain lookup: absent exactly for names the installed table lacks. |
| Config.IsInstalled | snakeer/config.py:113-120 | True exactly when there is an installed entry that, when a version is given, equals it. |
| Config.AddDependency | snakeer/config.py:78-82 | The spec becomes the requested one, replacing any earlier spec. Other requested names and the installed table are untouched. |
| Config.RemoveDependency | snakeer/config.py:85-92 | The name leaves both tables; every other entry stays as it was. |
| Config.SetInstalledVersion | snakeer/config.py:95-99 | Only the installed entry for the name changes, and it becomes the version. |
| Config.RemoveAfterAdd | snakeer/config.py:78-92 | Removing after adding equals removing: the added spec leaves no trace. |
| Config.RemoveIdempotent | snakeer/config.py:85-92 | Removing twice equals removing once, and removing an absent name changes nothing. |
| Config.AddOverwrites | snakeer/config.py:78-82 | The last added spec for a name wins. |
| Config.SetThenIsInstalled | snakeer/config.py:95-120 | After recording version `v`, the name is installed, and installed at a given version exactly when that version is `v`. |
| Installer.Listing | snakeer/installer.py:46-55 | A request for anything the registry does not hold reads as an empty listing. |
| Installer.AvailableVersions | snakeer/installer.py:57-65 | The versions are exactly the names of the listing's directory entries. |
| Installer.AvailableConcat | snakeer/installer.py:57-65 | Listing order is kept: the versions of two listings in a row are the first's followed by the second's. |
| Installer.AvailableFirst | snakeer/installer.py:57-65 | Some version is available exactly when the listing has a directory entry. The first version is the first directory entry of the listing. |
| Installer.SelectVersion | snakeer/installer.py:169-181 | Nothing for an empty listing. For `latest`, the first listed version, unsorted. For any other spec, what `find_best_version` returns: nothing exactly when no listed version satisfies the spec, and otherwise a satisfying version of maximal key. |
| Installer.ArchiveIndex | snakeer/installer.py:75-84 | The first listing entry whose name ends in `.zip` or `.tar.gz`; none exactly when no name does. |
| Installer.Hoist | snakeer/installer.py:115-121 | A layout other than one lone directory stays as it is. The children of one lone directory replace it and extraction succeeds, unless a child has the wrapper's own name: then the move of that child fails and the children before it sit beside the wrapper. |
| Installer.Extract | snakeer/installer.py:107-126 | A failing unpack reports failure with its partial output; a clean unpack is hoisted. |
| Installer.Fetch | snakeer/installer.py:67-126 | Unpacking happens only for a release that lists an archive and downloads, and whose package path holds no plain file. Otherwise the package directories are untouched and the fetch fails. A file in the way stays. When unpacking happens, the package directory becomes the extracted tree, and the fetch succeeds exactly when extraction does. The configuration is never touched. |
| Installer.FetchForgetsOldDirectory | snakeer/installer.py:101-105 | The package directory is wiped before unpacking: what directory it held before, or whether it existed, does not change the outcome. A plain file there makes the fetch fail and stays. |
| Installer.ShortCircuits | snakeer/installer.py:161-166 | The early return of `install_package` fires only for an installed package with a non-empty version: for `latest` exactly then, for any other spec exactly when that version satisfies the spec. |
| Installer.Record | snakeer/installer.py:192 | `set_installed_version` sets the name's installed version and appends one record; the package directories and the registry requests stay as they were. |
| Installer.DependenciesOf | snakeer/installer.py:128-150 | Dependencies are read only when the unpacked package directory holds a top-level `metadata.json` file, and then they are exactly those the release declares. |
| Installer.Declared | snakeer/installer.py:128-150 | A release declares dependencies only when its extracted tree holds `metadata.json` at the top. |
| Installer.Install | snakeer/installer.py:157-198 | An installed, non-empty version that `latest` or the spec accepts short-circuits: true, with no request and no change. Otherwise the versions are listed first. A failure changes no configuration and records nothing. A success that had to fetch records the name first, after which the same call short-circuits. Entries already installed under other names are never overwritten, and no name is recorded twice. |
| Installer.Attempt | snakeer/installer.py:168-198 | The path past the short cut: the versions are listed first, and a failure leaves the configuration as it was. A success records the name first, at a version the spec accepts. |
| Installer.Deploy | snakeer/installer.py:183-198 | Succeeds exactly when the release lists an archive, downloads and unpacks cleanly, and no plain file sits at the package path, whatever its dependencies do. On success the version is recorded first and is the installed version at the end, and every dependency the release declares was installed or looked up. |
| Installer.Settle | snakeer/installer.py:191-195 | The version is recorded before the dependencies are walked. That record is the first one made, and it is never overwritten by a nested install. Every dependency read from the package directory was installed or looked up. |
| Installer.InstallDependencies | snakeer/installer.py:138-155 | Walking the dependencies never changes an existing installed entry, and records each new name at most once. Every dependency read from `metadata.json` ends up installed or was looked up. |
| Installer.InstallDependency | snakeer/installer.py:153-155 | A dependency with an installed entry is passed over and nothing changes. Otherwise it is installed with its declared spec, and the first request is the listing of its versions. If it ends up installed, its entry satisfies that spec. The outcome is ignored. |
| Installer.WalkDeps | snakeer/installer.py:153-155 | Every declared dependency ends up installed or was looked up, whatever happened to the ones before it. |
| Installer.InstallOutcome | snakeer/installer.py:169-198 | Without the short cut, an install succeeds exactly when a version is selected from the listing, its release downloads and unpacks cleanly, and no plain file sits at the package path. The recorded version is the selected one. So an unlisted package, or one listed without an acceptable version, is not installed. |
| Installer.InstallWalksDependencies | snakeer/installer.py:157-198 | An install that succeeds without the short cut selected a version, and every dependency that release declares was installed or looked up during the call. |
| Installer.InstallIdempotent | snakeer/installer.py:161-166 | After a successful install, the same call again short-circuits and changes nothing. |
| Installer.LatestTakesFirstListed | snakeer/installer.py:174-175 | An install of `latest` that has to fetch records the first directory the registry lists. |
| Installer.InstallAll | snakeer/installer.py:200-215 | Each requested package is attempted in table order, and failures do not stop the loop. Without `force`, installed entries are not overwritten. Every requested name ends up installed or was looked up. Under `force`, every requested name was looked up unless its entry at the end satisfies its spec. Entries of names not in the table are never overwritten. |
| Installer.InstallRequested | snakeer/installer.py:210-215 | Without `force`, a package with an installed entry is passed over and nothing changes. A package that already short-circuits changes nothing either. Under `force`, or without an entry, and without the short cut, the first request is the listing of its versions. Only its own installed entry can change. |
| Installer.ReinstalledStep | snakeer/installer.py:210-212 | Under `force`, one package followed by the rest of the table leaves every name looked up or satisfied (the predicate `Reinstalled`). By induction through `InstallAll`, this holds for the whole table. |
| Installer.FirstReinstalled | snakeer/installer.py:210-212 | The package a forced iteration installs satisfies its spec at the end, or was looked up in that iteration, whatever later iterations do to other names. |
| Installer.RemovePackage | snakeer/installer.py:217-222 | The package directory goes, and every other path stays. A plain file at the package path stays too, since `rmtree` refuses it. |
| Installer.UpdatePackage | snakeer/installer.py:224-233 | Nothing happens without a non-empty requested spec, or when a plain file at the package path makes the removal raise. Otherwise the directory is removed and the package installed again, with its versions listed first. When the recorded version still satisfies the spec, the reinstall short-circuits: the directory stays gone and the configuration still says the package is installed. |
| Installer.UpdateReplacesDirectory | snakeer/installer.py:224-233 | Past the short cut, the old directory does not survive an update. The package directory afterwards exists exactly when a version was selected and its release could be fetched, and then it holds that release's extracted tree. |
| Installer.Updatable | snakeer/installer.py:226-233 | The names `update_package` goes on to install are exactly those whose requested spec is non-empty and whose package path holds no plain file. |
| Installer.UpdatableFrame | snakeer/installer.py:235-239 | Which names get updated depends on the package paths only through which of them hold plain files. |
| Installer.UpdateFrame | snakeer/installer.py:217-233 | An update neither creates nor removes a plain file at any package path. So a name skipped for a file in the way is still skipped later in `update_all`. |
| Installer.ReinstallFrame | snakeer/installer.py:230-233 | Removing the package directory and installing the package again leaves every plain file at a package path as it was. |
| Installer.UpdateAll | snakeer/installer.py:235-239 | Every requested name with a non-empty spec and no file in the way ends up installed or was looked up. |
| Installer.InstallFrame | snakeer/installer.py:157-198 | An install leaves alone every package directory of a name installed before it, except its own. It never creates, replaces or removes a plain file at a package path. |
| Installer.InstallLeavesDirectory | snakeer/installer.py:157-198 | Past the short cut, when a version is selected and its release can be fetched onto a path free of plain files, the package path afterwards holds that release's extracted tree. Otherwise the package directories are exactly as before. |
| Installer.DeployLeavesDirectory | snakeer/installer.py:183-198 | After a deploy, the package path holds the extracted archive whenever it could be unpacked, even if extraction failed part way, and dependency installs never overwrite it. Otherwise the package directories are unchanged. |
| Installer.DeployFrame | snakeer/installer.py:183-198 | A deploy writes its own package directory and those of names not yet installed, and nothing else. |
| Installer.FetchFrame | snakeer/installer.py:99-126 | A fetch writes only its own package path, and only a directory. |
| Installer.SettleFrame | snakeer/installer.py:191-195 | Once the version is recorded, the dependency walk leaves the package's own directory, and those of names installed before, as they were. |
| Installer.DependenciesFrame | snakeer/installer.py:138-155 | Installing the dependencies leaves every directory of an already installed name alone, and touches no plain file. |
| Installer.DependencyFrame | snakeer/installer.py:153-155 | Installing a dependency that was not installed leaves every directory of an installed name alone, and touches no plain file. |
| Installer.WalkFrame | snakeer/installer.py:153-155 | The dependency loop leaves every directory of an already installed name alone, and touches no plain file. |
| InstallerExamples.InstallDependsOn | snakeer/installer.py:157-198 | A package that is not installed and whose one listed release declares one dependency is recorded, and then that dependency is walked. |
| InstallerExamples.CycleCloses | snakeer/installer.py:153-155 | Within a cycle, the second package is recorded, and its walk back to the first package stops because the first is already installed. |
| InstallerExamples.MutualDependencies | snakeer/installer.py:138-198 | Installing one of two packages that depend on each other succeeds, and records both, once each: the first, then the second. |
| Publish.LocalFiles | snakeer/installer.py:263-269 | The files of one directory that are archived are exactly its files not ending in `.pyc`, `.pyo` or `.pyd`. |
| Publish.Under | snakeer/installer.py:267-268 | Prefixing a directory name gives exactly the paths under that directory. |
| Publish.Walk | snakeer/installer.py:255-269 | No archived path is empty. The top-level paths archived are exactly the files of the root directory that are not compiled. |
| Publish.WalkArchives | snakeer/installer.py:255-269 | A path is archived exactly when it leads to a file of the tree that is not compiled and lies under no excluded directory name. |
| Publish.WalkDirsArchives | snakeer/installer.py:256-261 | The subdirectory walks give exactly the archived paths of length two or more. |
| Publish.HereArchives | snakeer/installer.py:258-261 | An excluded directory contributes nothing; any other contributes the archived paths under it. |
| Cli.LastIndex | snakeer/cli.py:63-64 | The last position of the character; none exactly when it does not occur. |
| Cli.SplitPackageArg | snakeer/cli.py:63-67 | With an `@`, the name, an `@` and the version give back the argument, and the version holds no `@`. Without one, the whole argument is the name and the version is `latest`. |
| Cli.SplitJoinArg | snakeer/cli.py:63-64 | Splitting a name joined by `@` to an `@`-free version gives both back, even when the name holds `@`. |
| Cli.AddRequest | snakeer/cli.py:62-70 | `add` requests the split spec for the split name, leaving other requests and the installed table as they were. |
| Cli.RunAdd | snakeer/cli.py:61-72 | The request is saved before the install and stays whatever the install does. The install is then attempted with the split name and version. The registry request log is only appended to. |
| Cli.RequestThenInstall | snakeer/cli.py:68-70 | `add_dependency` then `install_package`: the spec is requested whatever the install does. When the package already short-circuits, neither the request log nor the installed table changes; otherwise its versions are listed first. The request log is only appended to. |
| Cli.RunInstall | snakeer/cli.py:56-59 | Every requested name ends up installed or was looked up. Without `--force`, installed entries stay. With `--force`, every requested name was looked up unless its entry satisfies its spec. |
| Cli.RunRemove | snakeer/cli.py:74-79 | Both tables lose the name and its directory goes. A plain file at the package path stays. Everything else stays, and the registry is not asked. |
| Cli.RunUpdate | snakeer/cli.py:81-88 | A non-empty package argument updates only that package. It is left alone without a non-empty spec or with a file in the way; otherwise its versions are listed, unless it short-circuits. No argument, or an empty one, updates every requested package with a non-empty spec and no file in the way. |
| Cli.Run | snakeer/cli.py:55-88 | `install` and `update` leave the requested table as it was; `add` and `remove` change it as `add_dependency` and `remove_dependency` do. `remove` asks the registry nothing and records nothing; every other command only appends to the request log. |
| Loader.EntryFile | snakeer/loader.py:33-47 | `index.py` whenever it exists. Otherwise `<name>.py` if present. Otherwise the first `.py` entry of the listing. None exactly when no entry ends in `.py`. |
| Loader.Resolve | snakeer/loader.py:26-47 | Not found exactly when the modules directory or the package is missing. Not a directory exactly when the package is a file. For a package directory, a module loads exactly when an entry file exists, and from that file. |
| Loader.Require | snakeer/loader.py:13-62 | The module found is entered in the cache under its name; a failure leaves the cache as it was. |
| Loader.RequireAll | snakeer/loader.py:65-86 | Nothing without a modules directory. Otherwise the result holds exactly the package directories that load, each mapped to what `require` returns for it, and the cache holds the same modules. Outside the loaded names the cache is as it was. |
| Loader.LoadEach | snakeer/loader.py:78-84 | The loop adds exactly the entries still to visit that load, and keeps the cache in agreement with the result. Outside the loaded names the cache is as it was. |
| Loader.LoadOne | snakeer/loader.py:79-84 | A directory entry is kept exactly when it loads; a file entry is passed over. Outside the loaded names the cache is as it was. |
| Loader.Reload | snakeer/loader.py:89-103 | The name is evicted, then required again. On failure it is no longer cached; on success it maps to the fresh module. Other cache entries stay. |

## Left out

- `Utils.FindBestVersion`, `Installer.SelectVersion`, `Installer.Install` and every member requiring `WfSpec`, `WfRegistry`, `WfStore` or `AllNumeric`:
  - Python's `int()` raises `ValueError` on a version component that is not a number (snakeer/utils.py:45-46, 75). The model turns that into these preconditions instead of an error path.
  - Their numbers are narrower than what `int()` accepts: one or more ASCII digits only, so not `" 1"`, `"+1"`, `"1_0"` or non-ASCII digits.
  - In the source, the exception also aborts the loops of `install_all` and `update_all` and ends the command at snakeer/cli.py:105-107. The model has no such abort.
- `Installer.Install`: `WfRegistry` and `WfStore` ask more than the source needs.
  - They require every listed version of every package to be numeric, and every installed entry to be numeric or empty.
  - The source converts only when a comparison is reached. `latest` takes the first listed version unparsed (snakeer/installer.py:174-175). An unlisted package fails before any comparison (snakeer/installer.py:169-172).
  - So registries listing a version such as `v2` are outside the install contracts, even where Python would not raise.
- `Config.Load`: the `_config` cache (snakeer/config.py:30-31) is not modelled. Each operation takes and returns the tables as values.
  - The `_save` writes of the document (snakeer/config.py:47, 50-55) are not modelled.
  - The `DEFAULT_CONFIG.copy()` shallow copy (snakeer/config.py:43, 46) is not modelled: a Python object-identity effect that shares the default tables across loads.
- `Installer.Hoist`: the order of `os.listdir` is not modelled (snakeer/installer.py:116-121). The hoisted children keep the wrapper's listing order.
  - That order later decides which `.py` file `Loader.EntryFile` takes first.
  - On a failed move, the partial layout is approximated by the moves made in that order.
- `Installer.DependenciesOf`: the content of `metadata.json` is abstracted into `Release.dependencies` (snakeer/installer.py:128-136). This includes the JSON decode and read errors that make it read as absent.
  - A `metadata.json` without a `dependencies` object, or with one whose entries are not strings, is not modelled.
- `Config.StoreOf`: the model covers only documents whose two tables are objects of strings. Loading fills in a missing table, but a table that holds `null`, a list or a number, or values that are not strings, makes the dependency operations raise or act differently in the source (snakeer/config.py:78-107). Such documents are not modelled.
- `Installer.Fetch`: a plain file at the package path makes `shutil.rmtree` raise outside any `try` (snakeer/installer.py:102-103). The exception ends the whole command at snakeer/cli.py:105-107. The model fails only that fetch and carries on: the calling install fails, and `install_all` or the dependency walk goes on to the next name.
- `Installer.RemovePackage`: the same `rmtree` raise on a plain file (snakeer/installer.py:220-221) is modelled as a removal that leaves the file. The end of the command it causes (snakeer/cli.py:105-107) is not.
- `Cli.RunRemove`: the configuration entries are dropped before the removal raises on a plain file (snakeer/cli.py:77-78), as in the source. The error exit that follows (snakeer/cli.py:105-107) is not modelled.
- `Installer.UpdatePackage`: on a plain file at the package path, the model stops that update with nothing changed. The source's raise also ends `update_all`, and the command, at snakeer/cli.py:105-107.
- `Installer.UpdateAll`: after a name skipped for a plain file, the model goes on with the rest of the table; the source stops there. Its ensures speaks only of the names with no file in the way.
- `InstallerExamples.InstallDependsOn`, `InstallerExamples.CycleCloses` and `InstallerExamples.MutualDependencies`: these scenarios assume no plain file sits at the paths of the packages they install.
- `Installer.AvailableVersions`: contents-API items whose type is neither `file` nor `dir`, such as `symlink` or `submodule`, are not modelled.
- `Installer.Fetch`: downloading, the cache file name and the archive formats (zip, tar.gz) are abstracted into what the release says.
  - The HTTP request, its headers and token, and its timeout are left out.
- `Installer.Fetch`, `Installer.RemovePackage` and `Installer.DependenciesOf`: a package name is joined into a path (snakeer/installer.py:99, 130, 219), whereas the model keys package directories by name. Names such as `""`, `"."`, `".."` or names holding `/` reach other directories in the source, which the model does not reproduce.
- `Installer.InstallAll`, `Installer.UpdateAll`, `Cli.RunInstall`, `Cli.RunUpdate` and `Loader.RequireAll` take the iteration order of the dict or directory listing as a parameter (`order`, or the listing sequence).
- `Loader.Require`: executing the module is not modelled; a module is the pair of its name and entry file.
  - The source enters the module in `sys.modules` before `exec_module` (snakeer/loader.py:56-60). So a module whose execution raises stays cached, whereas in the model a found module is always cached.
  - The `spec is None` failure of `importlib` (snakeer/loader.py:50-52) is not modelled.
- `Loader.Resolve`: the name is joined into a path (snakeer/loader.py:27, 79), whereas the model looks it up as one entry of the modules directory. So `""`, `"."`, `".."` and names holding `/` reach other directories in the source: `require("..")` searches the project directory, where the model answers not found.
- `Loader.RequireAll` assumes each name appears once in the modules listing, as it does in a directory.
- `Installer.SelectVersion`: `find_best_version` cannot return an empty string for a numeric listing. So the source's `if not version` on an empty-named version never fires in the model.
- `Publish.WalkArchives`: only which paths are archived is modelled. The project name and version, the archive path, zip writing and the printed upload hint are left out.
- Console output: every `print`, and the exit status of snakeer/cli.py:105-107.
- The `list` and `publish` commands of snakeer/cli.py, beyond what `Publish` models, are left out.
- `calculate_hash`, `get_modules_path` and the other path helpers of snakeer/utils.py are left out. So are `main.py`, `setup.py` and `snakeer/__init__.py`.

## Behaviour worth noting

- The registry has one source, the GitHub contents API of one repository (snakeer/installer.py:25-26). A failed request prints an error and reads as an empty listing (snakeer/installer.py:53-55), so a package the registry cannot be reached for is "not found".
- An exact spec is a raw string comparison, not a comparison of padded components (snakeer/utils.py:41-42).
- The spec parser never fails (snakeer/utils.py:12-30). A malformed version only surfaces as an `int()` error when it is compared (snakeer/utils.py:45-46, 75).
- The visited-list guard of `_install_dependencies` never fires, because each call starts with a fresh list (snakeer/installer.py:140-146, 195). Cycles end only because a package is recorded before its dependencies are walked (snakeer/installer.py:192-195).
- `update_package` does not force a reinstall. The configuration entry survives the directory removal, so the reinstall short-circuits whenever the recorded version still satisfies the spec (snakeer/installer.py:224-233).
- `install_all` skips a package when it has any installed entry, satisfying or not (snakeer/installer.py:211).

=== FILE: cli.dfy ===
/** The command layer (snakeer/cli.py): the `name@version` argument of
    `add`, and the order in which each command calls the configuration and
    the installer. */
module Cli {
  import opened Common
  import opened Utils
  import opened Config
  import opened Installer

  /** The position of the last `c` in `s`. */
  function LastIndex(s: string, c: char): (r: Option<nat>)
    ensures r.None? <==> c !in s
    ensures r.Some? ==> r.value < |s| && s[r.value] == c && c !in s[r.value + 1..]
  {
    if s == [] then None
    else
      match LastIndex(s[1..], c)
      case Some(k) =>
        assert s[k + 2..] == s[1..][k + 1..];
        Some(k + 1)
      case None =>
        assert c in s <==> s[0] == c || c in s[1..] by {
          assert s == [s[0]] + s[1..];
        }
        if s[0] == c then Some(0) else None
  }

  /** The argument of `add`: with an `@`, `rsplit("@", 1)` — the name is
      everything before the last `@`, the version everything after it;
      without one, the whole argument names the package and the version is
      `latest`. */
  function SplitPackageArg(arg: string): (r: (string, string))
    ensures '@' in arg ==> r.0 + "@" + r.1 == arg && '@' !in r.1
    ensures '@' !in arg ==> r == (arg, "latest")
  {
    match LastIndex(arg, '@')
    case None => (arg, "latest")
    case Some(k) =>
      assert arg == arg[..k] + "@" + arg[k + 1..];
      (arg[..k], arg[k + 1..])
  }

  /** Putting a name and an `@`-free version together and splitting them
      gives both back; the name may itself contain `@`. */
  lemma SplitJoinArg(name: string, version: string)
    requires '@' !in version
    ensures SplitPackageArg(name + "@" + version) == (name, version)
  {
    var arg := name + "@" + version;
    assert arg[|name|] == '@';
    assert arg[..|name|] == name && arg[|name| + 1..] == version;
  }

  /** The subcommands that change the project. */
  datatype Command =
    | InstallCmd(force: bool)
    | Add(package: string)
    | Remove(name: string)
    | Update(target: Option<string>)

  /** `order` is an iteration order of the table `m`: every key exactly
      once. */
  predicate IterationOrder(m: map<string, string>, order: seq<string>)
  {
    && (forall i :: 0 <= i < |order| ==> order[i] in m)
    && (forall n :: n in m ==> n in order)
    && (forall i, j :: 0 <= i < j < |order| ==> order[i] != order[j])
  }

  /** What a command needs for the comparisons not to raise: a readable
      spec for `add`. */
  predicate WfCommand(c: Command)
  {
    c.Add? ==> WfSpec(SplitPackageArg(c.package).1)
  }

  /** `snakeer install [--force]`. */
  function RunInstall(reg: Registry, w: World, force: bool, order: seq<string>): (r: World)
    requires WfRegistry(reg) && WfStore(w.store) && IterationOrder(w.store.requested, order)
    ensures Grows(w, r)
    ensures forall n :: n in w.store.requested ==>
              n in r.store.installed || ListVersions(n) in r.requests[|w.requests|..]
    ensures !force ==> Kept(w.store.installed, r.store.installed, {})
    ensures force ==> forall n :: n in w.store.requested ==>
              ShortCircuits(r.store, n, w.store.requested[n]) || ListVersions(n) in r.requests[|w.requests|..]
  {
    InstallAll(reg, w, order, force)
  }

  /** The first half of `snakeer add <package>`: the argument is split and
      its spec saved as requested for its name, replacing any earlier one;
      nothing else in the configuration changes. */
  function AddRequest(s: Store, package: string): (r: Store)
    ensures var (name, version) := SplitPackageArg(package);
            && GetRequestedVersion(r, name) == Some(version)
            && (forall n :: n != name ==> GetRequestedVersion(r, n) == GetRequestedVersion(s, n))
    ensures r.installed == s.installed
  {
    var (name, version) := SplitPackageArg(package);
    AddDependency(s, name, version)
  }

  /** `snakeer add <package>`: the spec is requested and saved before the
      install is attempted, so it stays requested whatever the install
      does; the install's outcome is not consulted. */
  function RunAdd(reg: Registry, w: World, package: string): (r: World)
    requires WfRegistry(reg) && WfStore(w.store) && WfSpec(SplitPackageArg(package).1)
    ensures r.store.requested == AddRequest(w.store, package).requested
    ensures |w.requests| <= |r.requests| && r.requests[..|w.requests|] == w.requests
    ensures var (name, version) := SplitPackageArg(package);
            && (!ShortCircuits(w.store, name, version) ==>
                  |r.requests| > |w.requests| && r.requests[|w.requests|] == ListVersions(name))
            && (ShortCircuits(w.store, name, version) ==> r.requests == w.requests && r.store.installed == w.store.installed)
  {
    var (name, version) := SplitPackageArg(package);
    RequestThenInstall(reg, w, name, version)
  }

  /** The two calls of `add` once the argument is split: `add_dependency`,
      then `install_package`. */
  function RequestThenInstall(reg: Registry, w: World, name: string, spec: string): (r: World)
    requires WfRegistry(reg) && WfStore(w.store) && WfSpec(spec)
    ensures r.store.requested == AddDependency(w.store, name, spec).requested
    ensures |w.requests| <= |r.requests| && r.requests[..|w.requests|] == w.requests
    ensures !ShortCircuits(w.store, name, spec) ==>
              |r.requests| > |w.requests| && r.requests[|w.requests|] == ListVersions(name)
    ensures ShortCircuits(w.store, name, spec) ==> r.requests == w.requests && r.store.installed == w.store.installed
  {
    RequestKeepsShortCut(w.store, name, spec);
    Install(reg, w.(store := AddDependency(w.store, name, spec)), name, spec).world
  }

  /** Requesting a spec touches only the requested table, so it neither
      breaks the tables' well-formedness nor changes whether an install of
      that spec short-circuits. */
  lemma RequestKeepsShortCut(s: Store, name: string, spec: string)
    requires WfStore(s) && WfSpec(spec)
    ensures WfStore(AddDependency(s, name, spec))
    ensures ShortCircuits(AddDependency(s, name, spec), name, spec) == ShortCircuits(s, name, spec)
  {
  }

  /** `snakeer remove <name>`: both tables lose the name, then the package
      directory goes; nothing is asked of the registry. */
  function RunRemove(w: World, name: string): (r: World)
    ensures GetRequestedVersion(r.store, name).None? && GetInstalledPackage(r.store, name).None?
    ensures !Blocked(w.modules, name) ==> name !in r.modules
    ensures Blocked(w.modules, name) ==> r.modules == w.modules
    ensures forall n :: n != name ==> GetRequestedVersion(r.store, n) == GetRequestedVersion(w.store, n)
    ensures forall n :: n != name ==> GetInstalledPackage(r.store, n) == GetInstalledPackage(w.store, n)
    ensures forall n :: n != name && n in w.modules ==> n in r.modules && r.modules[n] == w.modules[n]
    ensures r.requests == w.requests && r.records == w.records
  {
    w.(store := RemoveDependency(w.store, name), modules := RemovePackage(w.modules, name))
  }

  /** `snakeer update [<name>]`: with a (non-empty) name only that package
      is updated; without one, every requested package in the table's
      order. */
  function RunUpdate(reg: Registry, w: World, target: Option<string>, order: seq<string>): (r: World)
    requires WfRegistry(reg) && WfStore(w.store) && IterationOrder(w.store.requested, order)
    ensures Grows(w, r)
    ensures && target.Some? && target.value != ""
            && (GetRequestedVersion(w.store, target.value) in {None, Some("")} || Blocked(w.modules, target.value))
            ==> r == w
    ensures && target.Some? && target.value != ""
            && GetRequestedVersion(w.store, target.value) !in {None, Some("")} && !Blocked(w.modules, target.value)
            ==>
              var name := target.value;
              if ShortCircuits(w.store, name, w.store.requested[name])
              then r == w.(modules := RemovePackage(w.modules, name))
              else |r.requests| > |w.requests| && r.requests[|w.requests|] == ListVersions(name)
    ensures target.None? || target == Some("") ==>
              forall n :: n in w.store.requested && w.store.requested[n] != "" && !Blocked(w.modules, n) ==>
                n in r.store.installed || ListVersions(n) in r.requests[|w.requests|..]
  {
    match target
    case Some(name) =>
      if name != "" then UpdatePackage(reg, w, name) else UpdateAll(reg, w, order)
    case None => UpdateAll(reg, w, order)
  }

  /** One run of the program on a command; `order` is the iteration order
      of the requested table. */
  function Run(reg: Registry, w: World, c: Command, order: seq<string>): (r: World)
    requires WfRegistry(reg) && WfStore(w.store) && WfCommand(c)
    requires IterationOrder(w.store.requested, order)
    ensures c.InstallCmd? || c.Update? ==> r.store.requested == w.store.requested
    ensures c.Add? ==> r.store.requested == AddRequest(w.store, c.package).requested
    ensures c.Remove? ==> r.store.requested == RemoveDependency(w.store, c.name).requested
    ensures c.Remove? ==> r.requests == w.requests && r.records == w.records
    ensures !c.Remove? ==> |w.requests| <= |r.requests| && r.requests[..|w.requests|] == w.requests
  {
    match c
    case InstallCmd(force) => RunInstall(reg, w, force, order)
    case Add(package) => RunAdd(reg, w, package)
    case Remove(name) => RunRemove(w, name)
    case Update(target) => RunUpdate(reg, w, target, order)
  }
}

=== FILE: common.dfy ===
/** Small failure-carrying datatypes and a search helper shared by the other modules. */
module Common {

  /** A value that may be absent (Python's `Optional`, `None` for absent). */
  datatype Option<+T> = None | Some(value: T)

  /** The outcome of an operation that either yields a value or raises an error. */
  datatype Result<+T, +E> = Ok(value: T) | Err(error: E)

  /** Index of the first element of `xs` that satisfies `p`, if there is one. */
  function FirstMatch<T>(xs: seq<T>, p: T -> bool): (r: Option<nat>)
    ensures r.None? <==> forall j :: 0 <= j < |xs| ==> !p(xs[j])
    ensures r.Some? ==> r.value < |xs| && p(xs[r.value])
    ensures r.Some? ==> forall j :: 0 <= j < r.value ==> !p(xs[j])
  {
    if xs == [] then None
    else if p(xs[0]) then Some(0)
    else match FirstMatch(xs[1..], p)
      case None => None
      case Some(i) => Some(i + 1)
  }
}

=== FILE: config.dfy ===
/** The project configuration (snakeer/config.py): the JSON document read
    from `project_packages.json`, the defaults filled in on load, and the two
    tables the package manager keeps in it — the requested version specs and
    the installed versions. */
module Config {
  import opened Common

  const NameKey: string := "name"
  const VersionKey: string := "version"
  const RequestedKey: string := "snakeer_dependencies"
  const InstalledKey: string := "installed_dependencies_versions"

  /** A top-level JSON value as far as the package manager cares: a string,
      an object of strings, or anything else. */
  datatype Value = Text(text: string) | Table(entries: map<string, string>) | Other

  /** The top-level JSON object of the configuration file. */
  type Document = map<string, Value>

  /** The keys of `DEFAULT_CONFIG`, in the order Python iterates them. */
  const DefaultKeys: seq<string> := [NameKey, VersionKey, RequestedKey, InstalledKey]

  /** The value `DEFAULT_CONFIG` holds for one of its keys. */
  function DefaultValue(key: string): Value
  {
    if key == NameKey then Text("my_project")
    else if key == VersionKey then Text("1.0.0")
    else Table(map[])
  }

  /** `DEFAULT_CONFIG`. */
  function Defaults(): Document
  {
    map[NameKey := Text("my_project"), VersionKey := Text("1.0.0"),
        RequestedKey := Table(map[]), InstalledKey := Table(map[])]
  }

  /** What reading the configuration file can produce. */
  datatype ConfigFile = Missing | Unreadable | Parsed(doc: Document)

  /** The loop of `_load` over `keys`: each key that is absent gets its
      default; keys already present keep their values. */
  function FillDefaults(doc: Document, keys: seq<string>): (r: Document)
    ensures r.Keys == doc.Keys + set k | k in keys
    ensures forall k :: k in doc ==> r[k] == doc[k]
    ensures forall k :: k in r && k !in doc ==> r[k] == DefaultValue(k)
    decreases |keys|
  {
    if keys == [] then doc
    else
      var k := keys[0];
      var next := if k in doc then doc else doc[k := DefaultValue(k)];
      var r := FillDefaults(next, keys[1..]);
      assert (set x | x in keys) == {k} + set x | x in keys[1..];
      r
  }

  /** `_load`: a parsed file gets the missing defaults filled in; a missing
      or unreadable file yields the defaults. */
  function Load(file: ConfigFile): (d: Document)
    ensures file.Parsed? ==> d.Keys == file.doc.Keys + Defaults().Keys
    ensures file.Parsed? ==> forall k :: k in file.doc ==> d[k] == file.doc[k]
    ensures forall k :: k in d && (!file.Parsed? || k !in file.doc) ==> k in Defaults() && d[k] == Defaults()[k]
    ensures !file.Parsed? ==> d == Defaults()
  {
    match file
    case Parsed(doc) =>
      assert (set k | k in DefaultKeys) == Defaults().Keys;
      FillDefaults(doc, DefaultKeys)
    case _ => Defaults()
  }

  /** Loading what was loaded changes nothing: the filled document already
      holds every default key. */
  lemma LoadIdempotent(file: ConfigFile)
    ensures Load(Parsed(Load(file))) == Load(file)
  {
  }

  /** The two tables of a document. */
  datatype Store = Store(requested: map<string, string>, installed: map<string, string>)

  /** The tables of a loaded document, when both hold objects; Python raises
      on the dependency operations otherwise. */
  function StoreOf(d: Document): (r: Option<Store>)
    ensures r.Some? <==> RequestedKey in d && d[RequestedKey].Table? && InstalledKey in d && d[InstalledKey].Table?
    ensures r.Some? ==> d[RequestedKey] == Table(r.value.requested) && d[InstalledKey] == Table(r.value.installed)
  {
    if RequestedKey in d && d[RequestedKey].Table? && InstalledKey in d && d[InstalledKey].Table? then
      Some(Store(d[RequestedKey].entries, d[InstalledKey].entries))
    else None
  }

  /** Writes the tables back into the document, as `_save` does after each
      dependency operation. */
  function WithStore(d: Document, s: Store): (r: Document)
    ensures r.Keys == d.Keys + {RequestedKey, InstalledKey}
    ensures forall k :: k in d && k != RequestedKey && k != InstalledKey ==> r[k] == d[k]
  {
    d[RequestedKey := Table(s.requested)][InstalledKey := Table(s.installed)]
  }

  /** The tables written back are the tables read: the dependency operations
      touch nothing else in the document. */
  lemma StoreRoundTrip(d: Document, s: Store)
    ensures StoreOf(WithStore(d, s)) == Some(s)
  {
  }

  /** A missing or unreadable file gives two empty tables. */
  lemma DefaultStore(file: ConfigFile)
    requires !file.Parsed?
    ensures StoreOf(Load(file)) == Some(Store(map[], map[]))
  {
  }

  /** `get_requested_version`. */
  function GetRequestedVersion(s: Store, name: string): (r: Option<string>)
    ensures r.Some? <==> name in s.requested
    ensures r.Some? ==> r.value == s.requested[name]
  {
    if name in s.requested then Some(s.requested[name]) else None
  }

  /** `get_installed_package`. */
  function GetInstalledPackage(s: Store, name: string): (r: Option<string>)
    ensures r.Some? <==> name in s.installed
    ensures r.Some? ==> r.value == s.installed[name]
  {
    if name in s.installed then Some(s.installed[name]) else None
  }

  /** `is_installed(name, version)`: there is an installed entry, and it
      equals `version` when one is given. */
  function IsInstalled(s: Store, name: string, version: Option<string>): (r: bool)
    ensures r <==> GetInstalledPackage(s, name).Some? && (version.None? || GetInstalledPackage(s, name) == version)
  {
    match GetInstalledPackage(s, name)
    case None => false
    case Some(v) => version.None? || v == version.value
  }

  /** `add_dependency`: the spec is requested, replacing any earlier one. */
  function AddDependency(s: Store, name: string, spec: string): (r: Store)
    ensures GetRequestedVersion(r, name) == Some(spec)
    ensures forall n :: n != name ==> GetRequestedVersion(r, n) == GetRequestedVersion(s, n)
    ensures r.installed == s.installed
  {
    Store(s.requested[name := spec], s.installed)
  }

  /** `remove_dependency`: the name leaves both tables (nothing happens to a
      table that lacks it); every other entry stays. */
  function RemoveDependency(s: Store, name: string): (r: Store)
    ensures GetRequestedVersion(r, name).None? && GetInstalledPackage(r, name).None?
    ensures forall n :: n != name ==> GetRequestedVersion(r, n) == GetRequestedVersion(s, n)
    ensures forall n :: n != name ==> GetInstalledPackage(r, n) == GetInstalledPackage(s, n)
  {
    Store(s.requested - {name}, s.installed - {name})
  }

  /** `set_installed_version`: only the entry for `name` changes. */
  function SetInstalledVersion(s: Store, name: string, version: string): (r: Store)
    ensures GetInstalledPackage(r, name) == Some(version)
    ensures forall n :: n != name ==> GetInstalledPackage(r, n) == GetInstalledPackage(s, n)
    ensures r.requested == s.requested
  {
    Store(s.requested, s.installed[name := version])
  }

  /** Removing after adding is removing: the added spec leaves no trace. */
  lemma RemoveAfterAdd(s: Store, name: string, spec: string)
    ensures RemoveDependency(AddDependency(s, name, spec), name) == RemoveDependency(s, name)
  {
  }

  /** Removing twice is removing once; so is removing an absent name. */
  lemma RemoveIdempotent(s: Store, name: string)
    ensures RemoveDependency(RemoveDependency(s, name), name) == RemoveDependency(s, name)
    ensures name !in s.requested && name !in s.installed ==> RemoveDependency(s, name) == s
  {
  }

  /** The last `add_dependency` for a name wins. */
  lemma AddOverwrites(s: Store, name: string, spec1: string, spec2: string)
    ensures AddDependency(AddDependency(s, name, spec1), name, spec2) == AddDependency(s, name, spec2)
  {
  }

  /** After `set_installed_version(name, v)`, `name` is installed, and
      installed at `v` and at no other version. */
  lemma SetThenIsInstalled(s: Store, name: string, v: string, w: string)
    ensures IsInstalled(SetInstalledVersion(s, name, v), name, None)
    ensures IsInstalled(SetInstalledVersion(s, name, v), name, Some(w)) <==> w == v
  {
  }
}

=== FILE: files.dfy ===
/** Directory trees: the package directories under `snakeer_modules` and the
    trees archives unpack to. A directory is its listing, in the order
    `os.listdir` returns it. */
module Files {
  import opened Common

  datatype Node = File | Dir(entries: seq<Entry>)

  datatype Entry = Entry(name: string, node: Node)

  /** The names of a listing, in order. */
  function Names(entries: seq<Entry>): (r: seq<string>)
    ensures |r| == |entries|
    ensures forall i :: 0 <= i < |entries| ==> r[i] == entries[i].name
  {
    if entries == [] then [] else [entries[0].name] + Names(entries[1..])
  }

  /** The entry `os.path.join(dir, name)` refers to, if it exists. */
  function Lookup(entries: seq<Entry>, name: string): (r: Option<Node>)
    ensures r.None? <==> name !in Names(entries)
    ensures r.Some? ==> Entry(name, r.value) in entries
  {
    match FirstMatch(entries, (e: Entry) => e.name == name)
    case None => None
    case Some(i) => Some(entries[i].node)
  }

  /** `os.path.exists(os.path.join(dir, name))`. */
  predicate Exists(entries: seq<Entry>, name: string)
  {
    name in Names(entries)
  }
}

=== FILE: installer.dfy ===
/** The installer (snakeer/installer.py): reading the registry's listings,
    choosing a version, downloading and unpacking its archive into
    `snakeer_modules/<name>`, recording it in the configuration and walking
    the dependencies its `metadata.json` declares.

    The registry and the file system are values: a `Registry` says what every
    listing, download and archive yields, and a `World` holds the two tables of
    the configuration, the package directories, the registry requests made so
    far and the `set_installed_version` calls made so far. */
module Installer {
  import opened Common
  import Text
  import opened Utils
  import opened Config
  import opened Files

  // ---------------------------------------------------------------------------
  // The registry

  /** What the contents API says an entry of a listing is. */
  datatype ItemKind = FileItem | DirItem

  datatype Item = Item(kind: ItemKind, name: string)

  /** One entry of the `dependencies` object of a `metadata.json`. */
  datatype Dependency = Dependency(name: string, spec: string)

  /** What unpacking a downloaded archive leaves in the emptied package
      directory: everything, or what was written before the archive library
      raised. */
  datatype Unpacking = Unpacked(entries: seq<Entry>) | Broken(partial: seq<Entry>)

  /** One published version of a package: the listing of
      `packages/<name>/<version>`, whether downloading its (first) archive
      succeeds, what unpacking that archive produces, and the dependencies
      its `metadata.json` declares. */
  datatype Release = Release(items: seq<Item>, downloads: bool, unpacking: Unpacking,
                             dependencies: seq<Dependency>)

  /** The registry: the listing of `packages/<name>` for every package it
      knows, and the releases by (name, version). A request for anything
      else fails, and a failed request reads as an empty listing. */
  datatype Registry = Registry(packages: map<string, seq<Item>>,
                               releases: map<(string, string), Release>)

  /** `_get_registry_contents("packages/<name>")`. */
  function Listing(reg: Registry, name: string): (r: seq<Item>)
    ensures r != [] ==> name in reg.packages
  {
    if name in reg.packages then reg.packages[name] else []
  }

  /** `_get_registry_contents("packages/<name>/<version>")`. */
  function ReleaseItems(reg: Registry, name: string, version: string): (r: seq<Item>)
    ensures r != [] ==> (name, version) in reg.releases
  {
    if (name, version) in reg.releases then reg.releases[(name, version)].items else []
  }

  /** `_get_package_versions`: the directory names of a listing, in listing
      order (`AvailableConcat`). */
  function AvailableVersions(items: seq<Item>): (r: seq<string>)
    ensures |r| <= |items|
    ensures forall v :: v in r <==> Item(DirItem, v) in items
  {
    if items == [] then []
    else
      var rest := AvailableVersions(items[1..]);
      assert forall it :: it in items <==> it == items[0] || it in items[1..];
      if items[0].kind == DirItem then [items[0].name] + rest else rest
  }

  /** Listing order is kept: the versions of two listings one after the
      other are the versions of the first followed by those of the second. */
  lemma {:induction false} AvailableConcat(a: seq<Item>, b: seq<Item>)
    ensures AvailableVersions(a + b) == AvailableVersions(a) + AvailableVersions(b)
  {
    if a != [] {
      assert (a + b)[0] == a[0] && (a + b)[1..] == a[1..] + b;
      AvailableConcat(a[1..], b);
    } else {
      assert a + b == b;
    }
  }

  /** The first available version is the first directory of the listing:
      what `install_package` takes for `latest`. */
  lemma {:induction false} AvailableFirst(items: seq<Item>)
    ensures AvailableVersions(items) != [] <==> exists k :: 0 <= k < |items| && items[k].kind == DirItem
    ensures AvailableVersions(items) != [] ==>
              exists k :: 0 <= k < |items| && items[k] == Item(DirItem, AvailableVersions(items)[0]) &&
                forall j :: 0 <= j < k ==> items[j].kind != DirItem
  {
    if items != [] && items[0].kind != DirItem {
      AvailableFirst(items[1..]);
      var rest := AvailableVersions(items[1..]);
      if rest != [] {
        var k :| 0 <= k < |items[1..]| && items[1..][k] == Item(DirItem, rest[0]) &&
                 forall j :: 0 <= j < k ==> items[1..][j].kind != DirItem;
        assert items[k + 1] == Item(DirItem, rest[0]);
        forall j | 0 <= j < k + 1 ensures items[j].kind != DirItem {
          if j > 0 { assert items[j] == items[1..][j - 1]; }
        }
      } else {
        forall k | 0 <= k < |items| ensures items[k].kind != DirItem {
          if k > 0 { assert items[k] == items[1..][k - 1]; }
        }
      }
    } else if items != [] {
      assert items[0] == Item(DirItem, AvailableVersions(items)[0]);
    }
  }

  /** The registry lists only versions the comparisons can convert, and
      every declared dependency spec is one they can read. */
  predicate WfRegistry(reg: Registry)
  {
    && (forall name :: name in reg.packages ==> AllNumeric(AvailableVersions(reg.packages[name])))
    && (forall key :: key in reg.releases ==> WfDependencies(reg.releases[key].dependencies))
  }

  predicate WfDependencies(deps: seq<Dependency>)
  {
    forall i :: 0 <= i < |deps| ==> WfSpec(deps[i].spec)
  }

  /** The configuration tables hold readable specs and, for every installed
      entry, either the empty string or a convertible version. */
  predicate WfStore(s: Store)
  {
    && (forall n :: n in s.requested ==> WfSpec(s.requested[n]))
    && (forall n :: n in s.installed ==> s.installed[n] == "" || Numeric(s.installed[n]))
  }

  lemma NumericNonEmpty(v: string)
    requires Numeric(v)
    ensures v != ""
  {
    assert Text.Split([], '.') == [[]];
  }

  // ---------------------------------------------------------------------------
  // Choosing a version

  /** The version `install_package` goes for: none when the registry lists
      nothing; for the literal spec `latest`, the first directory listed
      (the source only assumes that it is the newest); otherwise the version
      `find_best_version` picks. */
  function SelectVersion(available: seq<string>, spec: string): (r: Option<string>)
    requires AllNumeric(available) && WfSpec(spec)
    ensures r.None? <==> (available == [] ||
              (spec != "latest" && forall j :: 0 <= j < |available| ==> !VersionSatisfies(available[j], spec)))
    ensures r.Some? ==> r.value in available && Numeric(r.value) && r.value != ""
    ensures r.Some? && spec == "latest" ==> r.value == available[0]
    ensures r.Some? && spec != "latest" ==>
              && VersionSatisfies(r.value, spec)
              && forall j :: 0 <= j < |available| && VersionSatisfies(available[j], spec) ==>
                   LexLe(Key(available[j]), Key(r.value))
    ensures available != [] && spec != "latest" ==> r == FindBestVersion(available, spec)
  {
    if available == [] then None
    else if spec == "latest" then
      NumericNonEmpty(available[0]);
      Some(available[0])
    else
      var best := FindBestVersion(available, spec);
      assert best.Some? ==> best.value != "" by {
        if best.Some? { NumericNonEmpty(best.value); }
      }
      best
  }

  /** The first entry `install_package` finds installed and acceptable: an
      installed, non-empty version that the spec accepts. */
  predicate ShortCircuits(s: Store, name: string, spec: string)
    requires WfStore(s) && WfSpec(spec)
    ensures ShortCircuits(s, name, spec) ==> IsInstalled(s, name, None)
    ensures spec == "latest" ==> (ShortCircuits(s, name, spec) <==> GetInstalledPackage(s, name).Some? && s.installed[name] != "")
    ensures name in s.installed && s.installed[name] != "" && spec != "latest" ==>
              (ShortCircuits(s, name, spec) <==> VersionSatisfies(s.installed[name], spec))
  {
    && name in s.installed && s.installed[name] != ""
    && (spec == "latest" || VersionSatisfies(s.installed[name], spec))
  }

  // ---------------------------------------------------------------------------
  // Downloading and unpacking

  /** The suffixes `_download_package` looks for. */
  predicate IsArchiveName(n: string)
  {
    Text.EndsWith(n, ".zip") || Text.EndsWith(n, ".tar.gz")
  }

  /** The position of the first listed entry whose name is an archive name
      (file or not: the kind is not consulted). */
  function ArchiveIndex(items: seq<Item>): (r: Option<nat>)
    ensures r.None? <==> forall j :: 0 <= j < |items| ==> !IsArchiveName(items[j].name)
    ensures r.Some? ==> r.value < |items| && IsArchiveName(items[r.value].name)
    ensures r.Some? ==> forall j :: 0 <= j < r.value ==> !IsArchiveName(items[j].name)
  {
    FirstMatch(items, (it: Item) => IsArchiveName(it.name))
  }

  /** The package directory an extraction leaves, and whether
      `_extract_package` reports success. */
  datatype Extracted = Extracted(entries: seq<Entry>, ok: bool)

  /** The hoisting step of `_extract_package`: when the archive unpacked to
      a single directory, its children are moved up one level in listing
      order and the emptied wrapper is removed. A child named like the
      wrapper cannot be moved (its destination is the wrapper itself), which
      raises and stops the moves: the children moved so far sit next to the
      wrapper, which keeps the rest. */
  function Hoist(entries: seq<Entry>): (r: Extracted)
    ensures !(|entries| == 1 && entries[0].node.Dir?) ==> r == Extracted(entries, true)
    ensures |entries| == 1 && entries[0].node.Dir? ==>
              var wrapper := entries[0].name;
              var children := entries[0].node.entries;
              && (r.ok <==> wrapper !in Names(children))
              && (r.ok ==> r.entries == children)
              && (!r.ok ==> exists i :: 0 <= i < |children| && children[i].name == wrapper &&
                                        wrapper !in Names(children[..i]) &&
                                        r.entries == children[..i] + [Entry(wrapper, Dir(children[i..]))])
  {
    if |entries| == 1 && entries[0].node.Dir? then
      var wrapper := entries[0].name;
      var children := entries[0].node.entries;
      match FirstMatch(children, (e: Entry) => e.name == wrapper)
      case None => Extracted(children, true)
      case Some(i) =>
        assert children[i].name == wrapper;
        assert Names(children)[i] == wrapper;
        assert wrapper !in Names(children[..i]) by {
          forall j | 0 <= j < i ensures Names(children[..i])[j] != wrapper {
            assert children[..i][j] == children[j];
          }
        }
        Extracted(children[..i] + [Entry(wrapper, Dir(children[i..]))], false)
    else Extracted(entries, true)
  }

  /** Unpacking then hoisting; an archive library that raises leaves its
      partial output in place and skips the hoist. */
  function Extract(u: Unpacking): (r: Extracted)
    ensures u.Broken? ==> r == Extracted(u.partial, false)
    ensures u.Unpacked? ==> r == Hoist(u.entries)
  {
    match u
    case Unpacked(entries) => Hoist(entries)
    case Broken(partial) => Extracted(partial, false)
  }

  // ---------------------------------------------------------------------------
  // The world the installer changes

  /** A registry request the installer makes. */
  datatype Request =
    | ListVersions(name: string)
    | ListRelease(name: string, version: string)
    | Download(name: string, version: string)

  /** The configuration tables, the directories under `snakeer_modules`, and
      the logs of registry requests and of `set_installed_version` calls. */
  datatype World = World(store: Store, modules: map<string, Node>,
                         requests: seq<Request>, records: seq<(string, string)>)

  datatype Outcome = Outcome(world: World, ok: bool)

  /** The release lists an archive and its download succeeds: the point
      at which `_extract_package` runs. */
  predicate Unpacks(reg: Registry, name: string, version: string)
  {
    && (name, version) in reg.releases
    && reg.releases[(name, version)].downloads
    && ArchiveIndex(reg.releases[(name, version)].items).Some?
  }

  /** The release is downloaded and unpacks cleanly: the condition under
      which `install_package` records the version. */
  predicate Deploys(reg: Registry, name: string, version: string)
  {
    Unpacks(reg, name, version) && Extract(reg.releases[(name, version)].unpacking).ok
  }

  /** A plain file sits at the package path: `os.path.exists` holds for
      it, and the `shutil.rmtree` that should wipe the package directory
      raises on it, before anything is unpacked or removed. */
  predicate Blocked(modules: map<string, Node>, name: string)
  {
    name in modules && modules[name].File?
  }

  /** `_download_package` followed, when it yields an archive, by
      `_extract_package`: list the release, download the first archive,
      wipe the package directory and unpack into it. A file in the way of
      the wipe stops the fetch and stays where it is. */
  function Fetch(reg: Registry, w: World, name: string, version: string): (r: Outcome)
    ensures r.world.store == w.store && r.world.records == w.records
    ensures |r.world.requests| > |w.requests| && r.world.requests[..|w.requests|] == w.requests
    ensures r.world.requests[|w.requests|] == ListRelease(name, version)
    ensures !Unpacks(reg, name, version) || Blocked(w.modules, name) ==> r.world.modules == w.modules && !r.ok
    ensures Unpacks(reg, name, version) && !Blocked(w.modules, name) ==>
              var x := Extract(reg.releases[(name, version)].unpacking);
              r.world.modules == w.modules[name := Dir(x.entries)] && r.ok == x.ok
    ensures r.ok ==> reg.releases[(name, version)].unpacking.Unpacked?
  {
    var w1 := w.(requests := w.requests + [ListRelease(name, version)]);
    var items := ReleaseItems(reg, name, version);
    match ArchiveIndex(items)
    case None => Outcome(w1, false)
    case Some(_) =>
      var w2 := w1.(requests := w1.requests + [Download(name, version)]);
      var rel := reg.releases[(name, version)];
      if !rel.downloads || Blocked(w2.modules, name) then Outcome(w2, false)
      else
        var x := Extract(rel.unpacking);
        Outcome(w2.(modules := w2.modules[name := Dir(x.entries)]), x.ok)
  }

  /** Unpacking wipes the package directory first: once the archive is in
      hand, what a fetch leaves under `snakeer_modules` does not depend on
      what the package directory held before, or whether it existed. A
      plain file in its place is the exception: the fetch fails and the
      file stays. */
  lemma FetchForgetsOldDirectory(reg: Registry, w: World, prior: Option<Node>, name: string, version: string)
    ensures var w' := w.(modules := if prior.Some? then w.modules[name := prior.value] else w.modules - {name});
            var r := Fetch(reg, w, name, version);
            var r' := Fetch(reg, w', name, version);
            && (!Blocked(w.modules, name) && !Blocked(w'.modules, name) ==>
                  && r'.ok == r.ok
                  && (Unpacks(reg, name, version) ==> r'.world.modules == r.world.modules))
            && (prior == Some(File) ==> !r'.ok && r'.world.modules == w'.modules)
  {
  }

  // ---------------------------------------------------------------------------
  // Installing

  /** Names of the registry that are not installed: the installs still
      possible. */
  function Pending(reg: Registry, s: Store): set<string>
  {
    reg.packages.Keys - s.installed.Keys
  }

  /** The names a record log mentions. */
  function RecordedNames(recs: seq<(string, string)>): set<string>
  {
    set i | 0 <= i < |recs| :: recs[i].0
  }

  /** The records made between two worlds. */
  function Added(w: World, w': World): seq<(string, string)>
    requires |w.records| <= |w'.records|
  {
    w'.records[|w.records|..]
  }

  /** What every installer step keeps between the world before and the
      world after: the requested table, well-formed tables, both logs only
      appended to, and a configuration that changes only where a record was
      made. */
  predicate Grows(w: World, w': World)
  {
    && w'.store.requested == w.store.requested
    && WfStore(w'.store)
    && |w.requests| <= |w'.requests| && w'.requests[..|w.requests|] == w.requests
    && |w.records| <= |w'.records| && w'.records[..|w.records|] == w.records
    && w'.store.installed.Keys == w.store.installed.Keys + RecordedNames(Added(w, w'))
  }

  /** Every installed entry outside `except` is still there, unchanged. */
  predicate Kept(before: map<string, string>, after: map<string, string>, except: set<string>)
  {
    forall n :: n in before && n !in except ==> n in after && after[n] == before[n]
  }

  /** Files at package paths are never touched and never made: the
      installer only writes directories, and leaves a file in the way. */
  predicate FilesKept(a: map<string, Node>, b: map<string, Node>)
  {
    && (forall n :: n in a && a[n].File? ==> n in b && b[n].File?)
    && (forall n :: n in b && b[n].File? ==> n in a && a[n].File?)
  }

  /** The package directories of the names in `fixed` are as they were,
      present or absent, and so is every file at a package path. */
  predicate DirsKept(a: map<string, Node>, b: map<string, Node>, fixed: set<string>)
  {
    && FilesKept(a, b)
    && (forall n :: n in fixed ==> (n in a <==> n in b) && (n in a ==> b[n] == a[n]))
  }

  /** The records name pairwise distinct packages, none of them in `taken`:
      each package is recorded at most once. */
  predicate FreshNames(recs: seq<(string, string)>, taken: set<string>)
  {
    forall i :: 0 <= i < |recs| ==> recs[i].0 !in taken && forall j :: 0 <= j < i ==> recs[j].0 != recs[i].0
  }

  /** `set_installed_version` together with its log entry. */
  function Record(w: World, name: string, version: string): (r: World)
    ensures r.store == SetInstalledVersion(w.store, name, version)
    ensures r.records == w.records + [(name, version)]
    ensures r.modules == w.modules && r.requests == w.requests
  {
    w.(store := SetInstalledVersion(w.store, name, version), records := w.records + [(name, version)])
  }

  /** `_read_package_metadata` and the `dependencies` lookup: the
      dependencies of the release just unpacked, when the package directory
      holds a `metadata.json` file; none otherwise. */
  function DependenciesOf(reg: Registry, w: World, name: string, version: string): (r: seq<Dependency>)
    requires WfRegistry(reg)
    ensures WfDependencies(r)
    ensures r != [] ==> name in w.modules && w.modules[name].Dir? &&
                        Lookup(w.modules[name].entries, "metadata.json") == Some(File)
    ensures name in w.modules && w.modules[name].Dir? &&
            Lookup(w.modules[name].entries, "metadata.json") == Some(File) && (name, version) in reg.releases ==>
              r == reg.releases[(name, version)].dependencies
  {
    if name in w.modules && w.modules[name].Dir? && Lookup(w.modules[name].entries, "metadata.json") == Some(File)
       && (name, version) in reg.releases
    then reg.releases[(name, version)].dependencies
    else []
  }

  /** The dependencies a clean deploy of a release walks: those its
      `metadata.json` declares when the extracted tree holds that file at
      the top; none otherwise. */
  function Declared(reg: Registry, name: string, version: string): (r: seq<Dependency>)
    ensures r != [] ==>
              && (name, version) in reg.releases
              && Lookup(Extract(reg.releases[(name, version)].unpacking).entries, "metadata.json") == Some(File)
  {
    if (name, version) in reg.releases &&
       Lookup(Extract(reg.releases[(name, version)].unpacking).entries, "metadata.json") == Some(File)
    then reg.releases[(name, version)].dependencies
    else []
  }

  /** How `install_package` ranks a name for termination: a name the
      registry lists can still lead to an install. */
  function Rank(reg: Registry, name: string): nat
  {
    if name in reg.packages then 2 else 0
  }

  /** `install_package(name, spec)`: nothing happens when an acceptable
      version is already installed; otherwise the registry is consulted. */
  function Install(reg: Registry, w: World, name: string, spec: string): (r: Outcome)
    requires WfRegistry(reg) && WfStore(w.store) && WfSpec(spec)
    ensures Grows(w, r.world)
    ensures Kept(w.store.installed, r.world.store.installed, {name})
    ensures FreshNames(Added(w, r.world), w.store.installed.Keys - {name})
    ensures ShortCircuits(w.store, name, spec) ==> r == Outcome(w, true)
    ensures !ShortCircuits(w.store, name, spec) ==>
              |r.world.requests| > |w.requests| && r.world.requests[|w.requests|] == ListVersions(name)
    ensures !r.ok ==> r.world.store == w.store && r.world.records == w.records
    ensures r.ok && !ShortCircuits(w.store, name, spec) ==>
              && Added(w, r.world) != [] && Added(w, r.world)[0].0 == name
              && ShortCircuits(r.world.store, name, spec)
    decreases |Pending(reg, w.store) - {name}|, Rank(reg, name), 3
  {
    if ShortCircuits(w.store, name, spec) then
      GrowsRefl(w);
      Outcome(w, true)
    else
      Attempt(reg, w, name, spec)
  }

  /** The part of `install_package` after the short cut: list the versions,
      choose one, then fetch and record it. */
  function Attempt(reg: Registry, w: World, name: string, spec: string): (r: Outcome)
    requires WfRegistry(reg) && WfStore(w.store) && WfSpec(spec)
    ensures Grows(w, r.world)
    ensures Kept(w.store.installed, r.world.store.installed, {name})
    ensures FreshNames(Added(w, r.world), w.store.installed.Keys - {name})
    ensures |r.world.requests| > |w.requests| && r.world.requests[|w.requests|] == ListVersions(name)
    ensures !r.ok ==> r.world.store == w.store && r.world.records == w.records
    ensures r.ok ==>
              && Added(w, r.world) != [] && Added(w, r.world)[0].0 == name
              && ShortCircuits(r.world.store, name, spec)
    decreases |Pending(reg, w.store) - {name}|, Rank(reg, name), 2
  {
    var w1 := w.(requests := w.requests + [ListVersions(name)]);
    var available := AvailableVersions(Listing(reg, name));
    match SelectVersion(available, spec)
    case None =>
      RequestsOnly(w, w1);
      Outcome(w1, false)
    case Some(v) =>
      assert Pending(reg, w1.store) == Pending(reg, w.store);
      var r := Deploy(reg, w1, name, v);
      AfterRequest(w, w1, r.world);
      r
  }

  /** Downloading, unpacking and recording `version`, then installing its
      dependencies. */
  function Deploy(reg: Registry, w: World, name: string, version: string): (r: Outcome)
    requires WfRegistry(reg) && WfStore(w.store) && Numeric(version)
    requires name in reg.packages
    ensures Grows(w, r.world)
    ensures Kept(w.store.installed, r.world.store.installed, {name})
    ensures FreshNames(Added(w, r.world), w.store.installed.Keys - {name})
    ensures |r.world.requests| > |w.requests| && r.world.requests[|w.requests|] == ListRelease(name, version)
    ensures !r.ok ==> r.world.store == w.store && r.world.records == w.records
    ensures r.ok <==> Deploys(reg, name, version) && !Blocked(w.modules, name)
    ensures r.ok ==>
              && Added(w, r.world) != [] && Added(w, r.world)[0] == (name, version)
              && name in r.world.store.installed && r.world.store.installed[name] == version
    ensures r.ok ==> Attempted(w, r.world, DepNames(Declared(reg, name, version)))
    decreases |Pending(reg, w.store) - {name}|, 2, 1
  {
    var f := Fetch(reg, w, name, version);
    if !f.ok then
      RequestsOnly(w, f.world);
      Outcome(f.world, false)
    else
      var w3 := Settle(reg, f.world, name, version);
      AfterRequest(w, f.world, w3);
      assert DependenciesOf(reg, f.world, name, version) == Declared(reg, name, version);
      AttemptedAfterRequest(w, f.world, w3, DepNames(Declared(reg, name, version)));
      Outcome(w3, true)
  }

  /** The end of a successful `install_package`, once the archive is
      unpacked: the version is recorded, then the dependencies installed. */
  function Settle(reg: Registry, w: World, name: string, version: string): (r: World)
    requires WfRegistry(reg) && WfStore(w.store) && Numeric(version)
    requires name in reg.packages
    ensures Grows(w, r)
    ensures Kept(w.store.installed, r.store.installed, {name})
    ensures FreshNames(Added(w, r), w.store.installed.Keys - {name})
    ensures Added(w, r) != [] && Added(w, r)[0] == (name, version)
    ensures name in r.store.installed && r.store.installed[name] == version
    ensures Attempted(w, r, DepNames(DependenciesOf(reg, w, name, version)))
    decreases |Pending(reg, w.store) - {name}|, 2, 0
  {
    var w2 := Record(w, name, version);
    assert Pending(reg, w2.store) == Pending(reg, w.store) - {name};
    var w3 := InstallDependencies(reg, w2, name, version);
    RecordThenWalk(w, w2, w3, name, version);
    w3
  }

  /** `_install_dependencies(name)`. It is always called without a visited
      list, so its guard against cycles never fires; the cycle is broken by
      `is_installed`, which holds for a package as soon as it is recorded. */
  function InstallDependencies(reg: Registry, w: World, name: string, version: string): (r: World)
    requires WfRegistry(reg) && WfStore(w.store)
    ensures Grows(w, r)
    ensures Kept(w.store.installed, r.store.installed, {})
    ensures FreshNames(Added(w, r), w.store.installed.Keys)
    ensures Attempted(w, r, DepNames(DependenciesOf(reg, w, name, version)))
    decreases |Pending(reg, w.store)|, 1, 0
  {
    WalkDeps(reg, w, DependenciesOf(reg, w, name, version))
  }

  /** One iteration of the loop of `_install_dependencies`: a dependency
      that is not installed is installed with its declared spec; the outcome
      is ignored. */
  function InstallDependency(reg: Registry, w: World, d: Dependency): (r: World)
    requires WfRegistry(reg) && WfStore(w.store) && WfSpec(d.spec)
    ensures Grows(w, r)
    ensures Kept(w.store.installed, r.store.installed, {})
    ensures FreshNames(Added(w, r), w.store.installed.Keys)
    ensures d.name in r.store.installed ||
              (|r.requests| > |w.requests| && r.requests[|w.requests|] == ListVersions(d.name))
    ensures IsInstalled(w.store, d.name, None) ==> r == w
    ensures !IsInstalled(w.store, d.name, None) ==>
              |r.requests| > |w.requests| && r.requests[|w.requests|] == ListVersions(d.name)
    ensures !IsInstalled(w.store, d.name, None) && d.name in r.store.installed ==> ShortCircuits(r.store, d.name, d.spec)
    decreases |Pending(reg, w.store)|, 0, 4
  {
    if IsInstalled(w.store, d.name, None) then
      GrowsRefl(w);
      w
    else
      RemoveCard(Pending(reg, w.store), d.name);
      var o := Install(reg, w, d.name, d.spec);
      NewDependency(w, o, d.name, d.spec);
      o.world
  }

  /** An install of a name with no installed entry keeps every entry there
      was, records no name that was installed, and installs the name only
      at a version its spec accepts. */
  lemma NewDependency(w: World, o: Outcome, name: string, spec: string)
    requires WfStore(w.store) && WfSpec(spec) && name !in w.store.installed
    requires Grows(w, o.world)
    requires Kept(w.store.installed, o.world.store.installed, {name})
    requires FreshNames(Added(w, o.world), w.store.installed.Keys - {name})
    requires !o.ok ==> o.world.store == w.store
    requires o.ok ==> ShortCircuits(o.world.store, name, spec)
    ensures Kept(w.store.installed, o.world.store.installed, {})
    ensures FreshNames(Added(w, o.world), w.store.installed.Keys)
    ensures name in o.world.store.installed ==> ShortCircuits(o.world.store, name, spec)
  {
    assert w.store.installed.Keys - {name} == w.store.installed.Keys;
  }

  /** The loop of `_install_dependencies`, in the order the metadata lists
      the dependencies. */
  function WalkDeps(reg: Registry, w: World, deps: seq<Dependency>): (r: World)
    requires WfRegistry(reg) && WfStore(w.store) && WfDependencies(deps)
    ensures Grows(w, r)
    ensures Kept(w.store.installed, r.store.installed, {})
    ensures FreshNames(Added(w, r), w.store.installed.Keys)
    ensures Attempted(w, r, DepNames(deps))
    decreases |Pending(reg, w.store)|, 0, |deps| + 4
  {
    if deps == [] then
      GrowsRefl(w);
      w
    else
      var w1 := InstallDependency(reg, w, deps[0]);
      PendingShrinks(reg, w, w1);
      WfDependenciesTail(deps);
      var r := WalkDeps(reg, w1, deps[1..]);
      WalkStep(w, w1, r);
      assert DepNames(deps)[1..] == DepNames(deps[1..]);
      Covers(w, w1, r, DepNames(deps));
      r
  }

  /** When nothing acceptable is installed, `install_package` succeeds
      exactly when a version is selected from the listing and its release
      downloads and unpacks cleanly, whatever its dependencies do; the
      version recorded is the one selected. So a package the registry does
      not list, or lists without an acceptable version, is not installed. */
  lemma InstallOutcome(reg: Registry, w: World, name: string, spec: string)
    requires WfRegistry(reg) && WfStore(w.store) && WfSpec(spec)
    requires !ShortCircuits(w.store, name, spec)
    ensures var r := Install(reg, w, name, spec);
            var v := SelectVersion(AvailableVersions(Listing(reg, name)), spec);
            && (r.ok <==> v.Some? && Deploys(reg, name, v.value) && !Blocked(w.modules, name))
            && (r.ok ==> name in r.world.store.installed && r.world.store.installed[name] == v.value)
  {
    var available := AvailableVersions(Listing(reg, name));
    var w1 := w.(requests := w.requests + [ListVersions(name)]);
    assert Install(reg, w, name, spec) == Attempt(reg, w, name, spec);
    match SelectVersion(available, spec)
    case None =>
      assert !Attempt(reg, w, name, spec).ok;
    case Some(v) =>
      assert Attempt(reg, w, name, spec) == Deploy(reg, w1, name, v);
  }

  /** A successful install that had to fetch walked the dependencies the
      selected release declares: each ended up installed or was looked up
      in the registry. */
  lemma InstallWalksDependencies(reg: Registry, w: World, name: string, spec: string)
    requires WfRegistry(reg) && WfStore(w.store) && WfSpec(spec)
    requires !ShortCircuits(w.store, name, spec) && Install(reg, w, name, spec).ok
    ensures var r := Install(reg, w, name, spec);
            var v := SelectVersion(AvailableVersions(Listing(reg, name)), spec);
            && v.Some?
            && |w.requests| <= |r.world.requests|
            && Attempted(w, r.world, DepNames(Declared(reg, name, v.value)))
  {
    InstallOutcome(reg, w, name, spec);
    var v := SelectVersion(AvailableVersions(Listing(reg, name)), spec).value;
    var w1 := w.(requests := w.requests + [ListVersions(name)]);
    assert Install(reg, w, name, spec) == Attempt(reg, w, name, spec);
    assert Attempt(reg, w, name, spec) == Deploy(reg, w1, name, v);
    var r := Deploy(reg, w1, name, v);
    AttemptedAfterRequest(w, w1, r.world, DepNames(Declared(reg, name, v)));
  }

  /** A successful install that had to fetch leaves the package where the
      very same call takes the short cut: a second call changes nothing and
      makes no registry request. */
  lemma InstallIdempotent(reg: Registry, w: World, name: string, spec: string)
    requires WfRegistry(reg) && WfStore(w.store) && WfSpec(spec)
    requires Install(reg, w, name, spec).ok
    ensures var r := Install(reg, w, name, spec).world;
            WfStore(r.store) && ShortCircuits(r.store, name, spec) && Install(reg, r, name, spec) == Outcome(r, true)
  {
  }

  /** With `latest` and nothing acceptable installed, the version installed
      is the first directory the registry lists, whatever the others are. */
  lemma LatestTakesFirstListed(reg: Registry, w: World, name: string)
    requires WfRegistry(reg) && WfStore(w.store) && WfSpec("latest")
    requires !ShortCircuits(w.store, name, "latest") && Install(reg, w, name, "latest").ok
    ensures var items := Listing(reg, name);
            exists k :: 0 <= k < |items| && items[k].kind == DirItem &&
              Install(reg, w, name, "latest").world.store.installed[name] == items[k].name &&
              forall j :: 0 <= j < k ==> items[j].kind != DirItem
  {
    var available := AvailableVersions(Listing(reg, name));
    AvailableFirst(Listing(reg, name));
    var w1 := w.(requests := w.requests + [ListVersions(name)]);
    assert Install(reg, w, name, "latest") == Attempt(reg, w, name, "latest");
    var v := SelectVersion(available, "latest");
    assert v.Some? && v.value == available[0];
    assert Attempt(reg, w, name, "latest") == Deploy(reg, w1, name, available[0]);
  }

  // ---------------------------------------------------------------------------
  // The package directories an install writes

  /** An install writes no package directory but its own and those of
      names that were not installed when it started, and never touches a
      file at a package path. */
  lemma {:induction false} InstallFrame(reg: Registry, w: World, name: string, spec: string)
    requires WfRegistry(reg) && WfStore(w.store) && WfSpec(spec)
    ensures DirsKept(w.modules, Install(reg, w, name, spec).world.modules, w.store.installed.Keys - {name})
    decreases |Pending(reg, w.store) - {name}|, Rank(reg, name), 3
  {
    if !ShortCircuits(w.store, name, spec) {
      var w1 := w.(requests := w.requests + [ListVersions(name)]);
      assert Install(reg, w, name, spec) == Attempt(reg, w, name, spec);
      match SelectVersion(AvailableVersions(Listing(reg, name)), spec)
      case None =>
      case Some(v) =>
        assert Attempt(reg, w, name, spec) == Deploy(reg, w1, name, v);
        assert Pending(reg, w1.store) == Pending(reg, w.store);
        DeployFrame(reg, w1, name, v);
    }
  }

  /** A deploy rewrites its own package directory and then walks the
      dependencies, which leave it alone. */
  lemma {:induction false} DeployFrame(reg: Registry, w: World, name: string, version: string)
    requires WfRegistry(reg) && WfStore(w.store) && Numeric(version) && name in reg.packages
    ensures DirsKept(w.modules, Deploy(reg, w, name, version).world.modules, w.store.installed.Keys - {name})
    decreases |Pending(reg, w.store) - {name}|, 2, 1
  {
    var f := Fetch(reg, w, name, version);
    FetchFrame(reg, w, name, version, w.store.installed.Keys - {name});
    if f.ok {
      assert Deploy(reg, w, name, version).world == Settle(reg, f.world, name, version);
      SettleFrame(reg, f.world, name, version);
      DirsKeptTrans(w.modules, f.world.modules, Settle(reg, f.world, name, version).modules,
                    w.store.installed.Keys - {name}, w.store.installed.Keys + {name});
    } else {
      assert Deploy(reg, w, name, version).world == f.world;
    }
  }

  /** A fetch writes only its own package directory, and only a
      directory. */
  lemma FetchFrame(reg: Registry, w: World, name: string, version: string, fixed: set<string>)
    requires name !in fixed
    ensures DirsKept(w.modules, Fetch(reg, w, name, version).world.modules, fixed)
  {
  }

  /** What an install leaves at its own package path: the directory of the
      chosen release's archive when that release could be fetched onto a
      path free of plain files, and otherwise whatever was there before. */
  lemma {:induction false} InstallLeavesDirectory(reg: Registry, w: World, name: string, spec: string)
    requires WfRegistry(reg) && WfStore(w.store) && WfSpec(spec)
    ensures var v := SelectVersion(AvailableVersions(Listing(reg, name)), spec);
            var m := Install(reg, w, name, spec).world.modules;
            && (|| ShortCircuits(w.store, name, spec) || v.None? || !Unpacks(reg, name, v.value)
                || Blocked(w.modules, name)
                ==> m == w.modules)
            && (!ShortCircuits(w.store, name, spec) && v.Some? && Unpacks(reg, name, v.value) &&
                !Blocked(w.modules, name) ==>
                  name in m && m[name] == Dir(Extract(reg.releases[(name, v.value)].unpacking).entries))
  {
    if !ShortCircuits(w.store, name, spec) {
      var w1 := w.(requests := w.requests + [ListVersions(name)]);
      assert Install(reg, w, name, spec) == Attempt(reg, w, name, spec);
      match SelectVersion(AvailableVersions(Listing(reg, name)), spec)
      case None =>
      case Some(v) =>
        assert Attempt(reg, w, name, spec) == Deploy(reg, w1, name, v);
        DeployLeavesDirectory(reg, w1, name, v);
    }
  }

  /** A deploy's own package path after it: the unpacked archive, or what
      was there when the fetch could not unpack. */
  lemma DeployLeavesDirectory(reg: Registry, w: World, name: string, version: string)
    requires WfRegistry(reg) && WfStore(w.store) && Numeric(version) && name in reg.packages
    ensures var m := Deploy(reg, w, name, version).world.modules;
            && (!Unpacks(reg, name, version) || Blocked(w.modules, name) ==> m == w.modules)
            && (Unpacks(reg, name, version) && !Blocked(w.modules, name) ==>
                  name in m && m[name] == Dir(Extract(reg.releases[(name, version)].unpacking).entries))
  {
    var f := Fetch(reg, w, name, version);
    if f.ok {
      assert Deploy(reg, w, name, version).world == Settle(reg, f.world, name, version);
      SettleFrame(reg, f.world, name, version);
    } else {
      assert Deploy(reg, w, name, version).world == f.world;
    }
  }

  /** Once the version is recorded, the dependency walk leaves the package's
      own directory, and those of every name installed before, alone. */
  lemma {:induction false} SettleFrame(reg: Registry, w: World, name: string, version: string)
    requires WfRegistry(reg) && WfStore(w.store) && Numeric(version) && name in reg.packages
    ensures DirsKept(w.modules, Settle(reg, w, name, version).modules, w.store.installed.Keys + {name})
    decreases |Pending(reg, w.store) - {name}|, 2, 0
  {
    var w2 := Record(w, name, version);
    SettleUnfolds(reg, w, name, version);
    DependenciesFrame(reg, w2, name, version);
  }

  /** `_install_package` after the unpack: record the version, then walk
      the dependencies, with the installed names grown by the package. */
  lemma SettleUnfolds(reg: Registry, w: World, name: string, version: string)
    requires WfRegistry(reg) && WfStore(w.store) && Numeric(version) && name in reg.packages
    ensures var w2 := Record(w, name, version);
            && WfStore(w2.store)
            && Pending(reg, w2.store) == Pending(reg, w.store) - {name}
            && w2.store.installed.Keys == w.store.installed.Keys + {name}
            && Settle(reg, w, name, version) == InstallDependencies(reg, w2, name, version)
  {
    var w2 := Record(w, name, version);
    assert Pending(reg, w2.store) == Pending(reg, w.store) - {name};
  }

  /** `_install_dependencies` writes no package directory of a name
      installed when it starts. */
  lemma {:induction false} DependenciesFrame(reg: Registry, w: World, name: string, version: string)
    requires WfRegistry(reg) && WfStore(w.store)
    ensures DirsKept(w.modules, InstallDependencies(reg, w, name, version).modules, w.store.installed.Keys)
    decreases |Pending(reg, w.store)|, 1, 0
  {
    WalkFrame(reg, w, DependenciesOf(reg, w, name, version));
  }

  /** The dependency walk installs only names that were not installed when
      it started, so it writes no other package directory. */
  lemma {:induction false} WalkFrame(reg: Registry, w: World, deps: seq<Dependency>)
    requires WfRegistry(reg) && WfStore(w.store) && WfDependencies(deps)
    ensures DirsKept(w.modules, WalkDeps(reg, w, deps).modules, w.store.installed.Keys)
    decreases |Pending(reg, w.store)|, 0, |deps| + 4
  {
    if deps != [] {
      var d := deps[0];
      var w1 := InstallDependency(reg, w, d);
      if !IsInstalled(w.store, d.name, None) {
        assert w1 == Install(reg, w, d.name, d.spec).world;
        DependencyFrame(reg, w, d);
      }
      PendingShrinks(reg, w, w1);
      WfDependenciesTail(deps);
      WalkFrame(reg, w1, deps[1..]);
      DirsKeptTrans(w.modules, w1.modules, WalkDeps(reg, w1, deps[1..]).modules,
                    w.store.installed.Keys, w1.store.installed.Keys);
    }
  }

  /** A dependency is installed only when its name is not, so its install
      leaves every directory of an installed name alone. */
  lemma {:induction false} DependencyFrame(reg: Registry, w: World, d: Dependency)
    requires WfRegistry(reg) && WfStore(w.store) && WfSpec(d.spec) && d.name !in w.store.installed
    ensures DirsKept(w.modules, Install(reg, w, d.name, d.spec).world.modules, w.store.installed.Keys)
    decreases |Pending(reg, w.store)|, 0, 4
  {
    RemoveCard(Pending(reg, w.store), d.name);
    InstallFrame(reg, w, d.name, d.spec);
    DirsKeptFewer(w.modules, Install(reg, w, d.name, d.spec).world.modules,
                  w.store.installed.Keys - {d.name}, w.store.installed.Keys);
  }

  /** `install_all(force)`: the requested packages, in the table's iteration
      order `order`; each is installed under `force` or when it has no
      installed entry, and the outcomes are ignored. */
  function InstallAll(reg: Registry, w: World, order: seq<string>, force: bool): (r: World)
    requires WfRegistry(reg) && WfStore(w.store)
    requires forall i :: 0 <= i < |order| ==> order[i] in w.store.requested
    ensures Grows(w, r)
    ensures !force ==> Kept(w.store.installed, r.store.installed, {})
    ensures Kept(w.store.installed, r.store.installed, set n | n in order)
    ensures Attempted(w, r, order)
    ensures force ==> Reinstalled(w, r, order)
    decreases |order|
  {
    if order == [] then
      GrowsRefl(w);
      w
    else
      var w1 := InstallRequested(reg, w, order[0], force);
      var r := InstallAll(reg, w1, order[1..], force);
      GrowsTrans(w, w1, r);
      Covers(w, w1, r, order);
      KeptAcross(w.store.installed, w1.store.installed, r.store.installed, order);
      ReinstalledStep(w, w1, r, order, force);
      r
  }

  /** Each of `names` is installed at a version its requested spec
      accepts, or was looked up in the registry between `w` and `r`: what a
      forced `install_all` leaves. */
  predicate Reinstalled(w: World, r: World, names: seq<string>)
    requires |w.requests| <= |r.requests| && WfStore(r.store)
    requires forall n :: n in names ==> n in r.store.requested
  {
    forall n :: n in names ==>
      ShortCircuits(r.store, n, r.store.requested[n]) || ListVersions(n) in r.requests[|w.requests|..]
  }

  /** One forced iteration of `install_all` followed by the rest. */
  lemma ReinstalledStep(w: World, w1: World, r: World, order: seq<string>, force: bool)
    requires order != [] && forall n :: n in order ==> n in w.store.requested
    requires Grows(w, w1) && Grows(w1, r)
    requires Kept(w1.store.installed, r.store.installed, set n | n in order[1..])
    requires force ==>
               || ShortCircuits(w1.store, order[0], w.store.requested[order[0]])
               || (|w1.requests| > |w.requests| && w1.requests[|w.requests|] == ListVersions(order[0]))
    requires force ==> Reinstalled(w1, r, order[1..])
    ensures force ==> Reinstalled(w, r, order)
  {
    if !force { return; }
    forall n | n in order
      ensures ShortCircuits(r.store, n, r.store.requested[n]) || ListVersions(n) in r.requests[|w.requests|..]
    {
      if n in order[1..] {
        if !ShortCircuits(r.store, n, r.store.requested[n]) {
          SuffixMember(r.requests, |w.requests|, |w1.requests|, ListVersions(n));
        }
      } else {
        FirstReinstalled(w, w1, r, n, w.store.requested[n]);
      }
    }
  }

  /** The name installed by the first iteration still short-circuits at the
      end, or was looked up by that iteration. */
  lemma FirstReinstalled(w: World, w1: World, r: World, name: string, spec: string)
    requires Grows(w, w1) && Grows(w1, r) && name in w.store.requested && spec == w.store.requested[name]
    requires name in w1.store.installed ==> name in r.store.installed && r.store.installed[name] == w1.store.installed[name]
    requires || ShortCircuits(w1.store, name, spec)
             || (|w1.requests| > |w.requests| && w1.requests[|w.requests|] == ListVersions(name))
    ensures ShortCircuits(r.store, name, spec) || ListVersions(name) in r.requests[|w.requests|..]
  {
    if !ShortCircuits(w1.store, name, spec) {
      assert r.requests[|w.requests|] == r.requests[..|w1.requests|][|w.requests|];
      assert r.requests[|w.requests|..][0] == ListVersions(name);
    }
  }

  /** Entries kept outside the first name, then outside the rest, are kept
      outside all of `order`. */
  lemma KeptAcross(a: map<string, string>, b: map<string, string>, c: map<string, string>, order: seq<string>)
    requires order != []
    requires Kept(a, b, {order[0]}) && Kept(b, c, set n | n in order[1..])
    ensures Kept(a, c, set n | n in order)
  {
    forall n | n in a && n !in (set m | m in order)
      ensures n in c && c[n] == a[n]
    {
      assert n != order[0] && n !in order[1..];
    }
  }

  /** One iteration of the loop of `install_all`. */
  function InstallRequested(reg: Registry, w: World, name: string, force: bool): (r: World)
    requires WfRegistry(reg) && WfStore(w.store) && name in w.store.requested
    ensures Grows(w, r)
    ensures !force ==> Kept(w.store.installed, r.store.installed, {})
    ensures Kept(w.store.installed, r.store.installed, {name})
    ensures name in r.store.installed ||
              (|r.requests| > |w.requests| && r.requests[|w.requests|] == ListVersions(name))
    ensures !force && name in w.store.installed ==> r == w
    ensures force || name !in w.store.installed ==>
              || ShortCircuits(r.store, name, w.store.requested[name])
              || (|r.requests| > |w.requests| && r.requests[|w.requests|] == ListVersions(name))
    ensures (force || name !in w.store.installed) && !ShortCircuits(w.store, name, w.store.requested[name]) ==>
              |r.requests| > |w.requests| && r.requests[|w.requests|] == ListVersions(name)
    ensures ShortCircuits(w.store, name, w.store.requested[name]) ==> r == w
  {
    if force || !IsInstalled(w.store, name, None) then
      Install(reg, w, name, w.store.requested[name]).world
    else
      GrowsRefl(w);
      w
  }

  /** `remove_package`: the package directory goes; nothing else changes.
      A plain file at the package path makes `rmtree` raise, and stays. */
  function RemovePackage(modules: map<string, Node>, name: string): (r: map<string, Node>)
    ensures !Blocked(modules, name) ==> name !in r
    ensures Blocked(modules, name) ==> r == modules
    ensures forall n :: n != name ==> (n in r <==> n in modules) && (n in r ==> r[n] == modules[n])
  {
    if Blocked(modules, name) then modules else modules - {name}
  }

  /** `update_package`: nothing without a non-empty requested spec; otherwise
      the directory is removed and the package installed again with its
      spec. The configuration is not touched first, so a recorded version
      that still satisfies the spec stops the reinstall: the directory stays
      removed while the configuration still says the package is installed.
      A plain file at the package path makes the removal raise, which ends
      the update before the install. */
  function UpdatePackage(reg: Registry, w: World, name: string): (r: World)
    requires WfRegistry(reg) && WfStore(w.store)
    ensures Grows(w, r)
    ensures name !in w.store.requested || w.store.requested[name] == "" || Blocked(w.modules, name) ==> r == w
    ensures name in w.store.requested && w.store.requested[name] != "" ==>
              var spec := w.store.requested[name];
              && (ShortCircuits(w.store, name, spec) ==>
                    r == w.(modules := RemovePackage(w.modules, name)) && name in r.store.installed)
              && (!ShortCircuits(w.store, name, spec) && !Blocked(w.modules, name) ==>
                    |r.requests| > |w.requests| && r.requests[|w.requests|] == ListVersions(name))
  {
    match GetRequestedVersion(w.store, name)
    case None =>
      GrowsRefl(w);
      w
    case Some(spec) =>
      if spec == "" || Blocked(w.modules, name) then
        GrowsRefl(w);
        w
      else
        var w' := w.(modules := RemovePackage(w.modules, name));
        var o := Install(reg, w', name, spec);
        Reinstall(w, w', o, name, spec);
        o.world
  }

  /** The install that follows the removal sees the same configuration and
      request log as the update it belongs to. */
  lemma Reinstall(w: World, w': World, o: Outcome, name: string, spec: string)
    requires WfStore(w.store) && WfSpec(spec)
    requires w' == w.(modules := RemovePackage(w.modules, name))
    requires Grows(w', o.world)
    requires ShortCircuits(w.store, name, spec) ==> o == Outcome(w', true)
    requires !ShortCircuits(w.store, name, spec) ==>
               |o.world.requests| > |w'.requests| && o.world.requests[|w'.requests|] == ListVersions(name)
    ensures Grows(w, o.world)
    ensures ShortCircuits(w.store, name, spec) ==> o.world == w' && name in o.world.store.installed
    ensures !ShortCircuits(w.store, name, spec) ==>
              |o.world.requests| > |w.requests| && o.world.requests[|w.requests|] == ListVersions(name)
  {
  }

  /** `update_all`: `update_package` for every requested package, in the
      table's iteration order `order`. */
  function UpdateAll(reg: Registry, w: World, order: seq<string>): (r: World)
    requires WfRegistry(reg) && WfStore(w.store)
    requires forall i :: 0 <= i < |order| ==> order[i] in w.store.requested
    ensures Grows(w, r)
    ensures Attempted(w, r, Updatable(w.store, w.modules, order))
    decreases |order|
  {
    if order == [] then
      GrowsRefl(w);
      w
    else
      var w1 := UpdatePackage(reg, w, order[0]);
      var r := UpdateAll(reg, w1, order[1..]);
      GrowsTrans(w, w1, r);
      UpdateFrame(reg, w, order[0]);
      UpdatableFrame(w.store, w1.store, w.modules, w1.modules, order[1..]);
      UpdateStep(w, w1, r, order);
      r
  }

  /** The names of `order` whose requested spec is not empty and whose
      package path holds no plain file: the ones `update_package` goes on
      to install. */
  function Updatable(s: Store, modules: map<string, Node>, order: seq<string>): (r: seq<string>)
    requires forall i :: 0 <= i < |order| ==> order[i] in s.requested
    ensures forall n :: n in r <==> n in order && s.requested[n] != "" && !Blocked(modules, n)
  {
    if order == [] then []
    else
      var rest := Updatable(s, modules, order[1..]);
      assert forall n :: n in order <==> n == order[0] || n in order[1..];
      if s.requested[order[0]] != "" && !Blocked(modules, order[0]) then [order[0]] + rest else rest
  }

  /** An update writes no plain file and removes none, so the names it
      skips for a file in the way stay skipped. */
  lemma UpdateFrame(reg: Registry, w: World, name: string)
    requires WfRegistry(reg) && WfStore(w.store)
    ensures FilesKept(w.modules, UpdatePackage(reg, w, name).modules)
  {
    if name in w.store.requested && w.store.requested[name] != "" && !Blocked(w.modules, name) {
      var spec := w.store.requested[name];
      assert UpdatePackage(reg, w, name) == Install(reg, w.(modules := RemovePackage(w.modules, name)), name, spec).world;
      ReinstallFrame(reg, w, name, spec);
    }
  }

  /** Removing a package directory, then installing the package, leaves
      every plain file at a package path as it was. */
  lemma ReinstallFrame(reg: Registry, w: World, name: string, spec: string)
    requires WfRegistry(reg) && WfStore(w.store) && WfSpec(spec) && !Blocked(w.modules, name)
    ensures FilesKept(w.modules, Install(reg, w.(modules := RemovePackage(w.modules, name)), name, spec).world.modules)
  {
    var w' := w.(modules := RemovePackage(w.modules, name));
    InstallFrame(reg, w', name, spec);
    DirsKeptTrans(w.modules, w'.modules, Install(reg, w', name, spec).world.modules, {}, w.store.installed.Keys - {name});
  }

  /** The names to update depend on the package paths only through which
      of them hold plain files. */
  lemma {:induction false} UpdatableFrame(s: Store, s': Store, a: map<string, Node>, b: map<string, Node>, order: seq<string>)
    requires forall i :: 0 <= i < |order| ==> order[i] in s.requested
    requires s'.requested == s.requested && FilesKept(a, b)
    ensures Updatable(s, a, order) == Updatable(s', b, order)
    decreases |order|
  {
    if order != [] {
      UpdatableFrame(s, s', a, b, order[1..]);
    }
  }

  /** One iteration of `update_all`: the first name of `order` is updated,
      which, when its spec is not empty and no file is in the way, installs
      it or looks it up. */
  lemma UpdateStep(w: World, w1: World, r: World, order: seq<string>)
    requires order != [] && forall i :: 0 <= i < |order| ==> order[i] in w.store.requested
    requires Grows(w, w1) && Grows(w1, r)
    requires w.store.requested[order[0]] != "" && !Blocked(w.modules, order[0]) ==>
               order[0] in w1.store.installed ||
               (|w1.requests| > |w.requests| && w1.requests[|w.requests|] == ListVersions(order[0]))
    requires forall i :: 0 <= i < |order[1..]| ==> order[1..][i] in w.store.requested
    requires Attempted(w1, r, Updatable(w.store, w.modules, order[1..]))
    ensures Attempted(w, r, Updatable(w.store, w.modules, order))
  {
    UpdatableTail(w.store, w.modules, order);
    if w.store.requested[order[0]] != "" && !Blocked(w.modules, order[0]) {
      Covers(w, w1, r, Updatable(w.store, w.modules, order));
    } else {
      AttemptedFrom(w, w1, r, Updatable(w.store, w.modules, order));
    }
  }

  lemma UpdatableTail(s: Store, modules: map<string, Node>, order: seq<string>)
    requires order != [] && forall i :: 0 <= i < |order| ==> order[i] in s.requested
    ensures s.requested[order[0]] != "" && !Blocked(modules, order[0]) ==>
              Updatable(s, modules, order) != [] && Updatable(s, modules, order)[0] == order[0] &&
              Updatable(s, modules, order)[1..] == Updatable(s, modules, order[1..])
    ensures s.requested[order[0]] == "" || Blocked(modules, order[0]) ==>
              Updatable(s, modules, order) == Updatable(s, modules, order[1..])
  {
  }

  /** An update that neither stops at a file in the way nor at the short
      cut replaces the package directory: afterwards it holds the archive of
      the version chosen for the requested spec, or is gone when no such
      release could be fetched. */
  lemma UpdateReplacesDirectory(reg: Registry, w: World, name: string)
    requires WfRegistry(reg) && WfStore(w.store)
    ensures name in w.store.requested && w.store.requested[name] != "" && !Blocked(w.modules, name) &&
            !ShortCircuits(w.store, name, w.store.requested[name]) ==>
              var v := SelectVersion(AvailableVersions(Listing(reg, name)), w.store.requested[name]);
              var m := UpdatePackage(reg, w, name).modules;
              && (name in m <==> v.Some? && Unpacks(reg, name, v.value))
              && (name in m ==> m[name] == Dir(Extract(reg.releases[(name, v.value)].unpacking).entries))
  {
    if name in w.store.requested && w.store.requested[name] != "" && !Blocked(w.modules, name) {
      var spec := w.store.requested[name];
      var w' := w.(modules := RemovePackage(w.modules, name));
      assert UpdatePackage(reg, w, name) == Install(reg, w', name, spec).world;
      assert !Blocked(w'.modules, name);
      InstallLeavesDirectory(reg, w', name, spec);
    }
  }

  // ---------------------------------------------------------------------------
  // Bookkeeping lemmas for the installer's contracts

  lemma GrowsRefl(w: World)
    requires WfStore(w.store)
    ensures Grows(w, w)
    ensures Kept(w.store.installed, w.store.installed, {})
    ensures FreshNames(Added(w, w), w.store.installed.Keys)
  {
    assert Added(w, w) == [];
  }

  /** A step that only makes registry requests. */
  lemma RequestsOnly(w: World, w': World)
    requires WfStore(w.store)
    requires w'.store == w.store && w'.records == w.records
    requires |w.requests| <= |w'.requests| && w'.requests[..|w.requests|] == w.requests
    ensures Grows(w, w')
    ensures Kept(w.store.installed, w'.store.installed, {})
    ensures FreshNames(Added(w, w'), w.store.installed.Keys)
  {
    assert Added(w, w') == [];
  }

  lemma RemoveCard<T>(s: set<T>, x: T)
    ensures |s - {x}| == if x in s then |s| - 1 else |s|
  {
    if x in s {
      assert s == (s - {x}) + {x};
    } else {
      assert s - {x} == s;
    }
  }

  lemma {:induction false} SubsetCard<T>(a: set<T>, b: set<T>)
    requires a <= b
    ensures |a| <= |b|
    decreases |a|
  {
    if a != {} {
      var x :| x in a;
      SubsetCard(a - {x}, b - {x});
      RemoveCard(a, x);
      RemoveCard(b, x);
    }
  }

  /** Installing never uninstalls, so the pending names only shrink. */
  lemma PendingShrinks(reg: Registry, w: World, w': World)
    requires Grows(w, w')
    ensures |Pending(reg, w'.store)| <= |Pending(reg, w.store)|
  {
    SubsetCard(Pending(reg, w'.store), Pending(reg, w.store));
  }

  lemma SuffixMember<T>(s: seq<T>, a: nat, b: nat, x: T)
    requires a <= b <= |s|
    requires x in s[b..]
    ensures x in s[a..]
  {
    var k :| 0 <= k < |s[b..]| && s[b..][k] == x;
    assert s[a..][k + b - a] == x;
  }

  lemma RecordedNamesAppend(a: seq<(string, string)>, b: seq<(string, string)>)
    ensures RecordedNames(a + b) == RecordedNames(a) + RecordedNames(b)
  {
    forall n | n in RecordedNames(a + b) ensures n in RecordedNames(a) + RecordedNames(b) {
      var i :| 0 <= i < |a + b| && (a + b)[i].0 == n;
      if i >= |a| { assert b[i - |a|].0 == n; }
    }
    forall n | n in RecordedNames(a) + RecordedNames(b) ensures n in RecordedNames(a + b) {
      if n in RecordedNames(a) {
        var i :| 0 <= i < |a| && a[i].0 == n;
        assert (a + b)[i].0 == n;
      } else {
        var i :| 0 <= i < |b| && b[i].0 == n;
        assert (a + b)[|a| + i].0 == n;
      }
    }
  }

  /** The records between `w` and `w''` are those up to `w'` followed by
      those after it. */
  lemma AddedSplit(w: World, w': World, w'': World)
    requires |w.records| <= |w'.records| && w'.records[..|w.records|] == w.records
    requires |w'.records| <= |w''.records| && w''.records[..|w'.records|] == w'.records
    ensures |w.records| <= |w''.records| && w''.records[..|w.records|] == w.records
    ensures Added(w, w'') == Added(w, w') + Added(w', w'')
  {
    assert w''.records[..|w.records|] == w''.records[..|w'.records|][..|w.records|];
  }

  lemma WfDependenciesTail(deps: seq<Dependency>)
    requires deps != [] && WfDependencies(deps)
    ensures WfDependencies(deps[1..])
  {
    forall i | 0 <= i < |deps[1..]| ensures WfSpec(deps[1..][i].spec) {
      assert deps[1..][i] == deps[i + 1];
    }
  }

  /** Each of `names` ended up installed or was looked up in the registry
      between `w` and `r`. */
  predicate Attempted(w: World, r: World, names: seq<string>)
    requires |w.requests| <= |r.requests|
  {
    forall n :: n in names ==> n in r.store.installed || ListVersions(n) in r.requests[|w.requests|..]
  }

  function DepNames(deps: seq<Dependency>): (r: seq<string>)
    ensures |r| == |deps| && forall i :: 0 <= i < |deps| ==> r[i] == deps[i].name
  {
    if deps == [] then [] else [deps[0].name] + DepNames(deps[1..])
  }

  /** A step that installs or looks up the first name, followed by steps that
      attempt the rest, attempts them all. */
  lemma Covers(w: World, w1: World, r: World, names: seq<string>)
    requires names != []
    requires Grows(w, w1) && Grows(w1, r)
    requires names[0] in w1.store.installed ||
               (|w1.requests| > |w.requests| && w1.requests[|w.requests|] == ListVersions(names[0]))
    requires Attempted(w1, r, names[1..])
    ensures Attempted(w, r, names)
  {
    assert r.requests[..|w.requests|] == r.requests[..|w1.requests|][..|w.requests|];
    if names[0] !in w1.store.installed {
      assert r.requests[|w.requests|] == r.requests[..|w1.requests|][|w.requests|];
      assert r.requests[|w.requests|..][0] == ListVersions(names[0]);
    }
    forall n | n in names
      ensures n in r.store.installed || ListVersions(n) in r.requests[|w.requests|..]
    {
      if n != names[0] {
        assert n in names[1..];
        if n !in r.store.installed {
          SuffixMember(r.requests, |w.requests|, |w1.requests|, ListVersions(n));
        }
      }
    }
  }

  lemma DirsKeptFewer(a: map<string, Node>, b: map<string, Node>, fixed: set<string>, fewer: set<string>)
    requires DirsKept(a, b, fixed) && fewer <= fixed
    ensures DirsKept(a, b, fewer)
  {
  }

  lemma DirsKeptTrans(a: map<string, Node>, b: map<string, Node>, c: map<string, Node>,
                      fixed: set<string>, wider: set<string>)
    requires DirsKept(a, b, fixed) && DirsKept(b, c, wider) && fixed <= wider
    ensures DirsKept(a, c, fixed)
  {
  }

  lemma GrowsTrans(w: World, w1: World, w2: World)
    requires Grows(w, w1) && Grows(w1, w2)
    ensures Grows(w, w2)
  {
    AddedSplit(w, w1, w2);
    RecordedNamesAppend(Added(w, w1), Added(w1, w2));
    assert w2.requests[..|w.requests|] == w2.requests[..|w1.requests|][..|w.requests|];
  }

  /** Attempts made after a step that attempts nothing still count. */
  lemma AttemptedFrom(w: World, w1: World, r: World, names: seq<string>)
    requires Grows(w, w1) && Grows(w1, r)
    requires Attempted(w1, r, names)
    ensures Attempted(w, r, names)
  {
    assert r.requests[..|w.requests|] == r.requests[..|w1.requests|][..|w.requests|];
    forall n | n in names && n !in r.store.installed
      ensures ListVersions(n) in r.requests[|w.requests|..]
    {
      SuffixMember(r.requests, |w.requests|, |w1.requests|, ListVersions(n));
    }
  }

  /** Chaining two steps of the dependency walk. */
  lemma WalkStep(w: World, w1: World, w2: World)
    requires Grows(w, w1) && Grows(w1, w2)
    requires Kept(w.store.installed, w1.store.installed, {}) && Kept(w1.store.installed, w2.store.installed, {})
    requires FreshNames(Added(w, w1), w.store.installed.Keys)
    requires FreshNames(Added(w1, w2), w1.store.installed.Keys)
    ensures Grows(w, w2)
    ensures Kept(w.store.installed, w2.store.installed, {})
    ensures FreshNames(Added(w, w2), w.store.installed.Keys)
  {
    AddedSplit(w, w1, w2);
    RecordedNamesAppend(Added(w, w1), Added(w1, w2));
    assert w2.requests[..|w.requests|] == w2.requests[..|w1.requests|][..|w.requests|];
    var a: seq<(string, string)>, b: seq<(string, string)> := Added(w, w1), Added(w1, w2);
    forall i | 0 <= i < |a + b|
      ensures (a + b)[i].0 !in w.store.installed.Keys
      ensures forall j :: 0 <= j < i ==> (a + b)[j].0 != (a + b)[i].0
    {
      if i >= |a| {
        assert (a + b)[i] == b[i - |a|];
        assert b[i - |a|].0 !in w1.store.installed.Keys;
        forall j | 0 <= j < i ensures (a + b)[j].0 != (a + b)[i].0 {
          if j < |a| {
            assert a[j].0 in RecordedNames(a);
          } else {
            assert (a + b)[j] == b[j - |a|];
          }
        }
      }
    }
  }

  /** Registry requests followed by a step: the step's records are all the
      records, and the requests come first. */
  lemma AfterRequest(w: World, w1: World, w2: World)
    requires WfStore(w.store)
    requires w1.store == w.store && w1.records == w.records
    requires |w1.requests| > |w.requests| && w1.requests[..|w.requests|] == w.requests
    requires Grows(w1, w2)
    ensures Grows(w, w2) && Added(w, w2) == Added(w1, w2)
    ensures |w2.requests| > |w.requests| && w2.requests[|w.requests|] == w1.requests[|w.requests|]
  {
    assert w2.requests[..|w.requests|] == w2.requests[..|w1.requests|][..|w.requests|];
    assert w2.requests[|w.requests|] == w2.requests[..|w1.requests|][|w.requests|];
  }

  /** Attempts made after a step that only made registry requests still
      count from before it. */
  lemma AttemptedAfterRequest(w: World, w1: World, w2: World, names: seq<string>)
    requires |w1.requests| >= |w.requests| && w1.requests[..|w.requests|] == w.requests
    requires |w2.requests| >= |w1.requests| && w2.requests[..|w1.requests|] == w1.requests
    requires Attempted(w1, w2, names)
    ensures Attempted(w, w2, names)
  {
    forall n | n in names && n !in w2.store.installed
      ensures ListVersions(n) in w2.requests[|w.requests|..]
    {
      SuffixMember(w2.requests, |w.requests|, |w1.requests|, ListVersions(n));
    }
  }

  /** The success path of `install_package`: one record for `name`, then
      the dependency walk. */
  lemma RecordThenWalk(w: World, w2: World, w3: World, name: string, v: string)
    requires WfStore(w.store) && Numeric(v)
    requires w2 == Record(w, name, v)
    requires Grows(w2, w3) && Kept(w2.store.installed, w3.store.installed, {})
    requires FreshNames(Added(w2, w3), w2.store.installed.Keys)
    ensures Grows(w, w3)
    ensures Kept(w.store.installed, w3.store.installed, {name})
    ensures FreshNames(Added(w, w3), w.store.installed.Keys - {name})
    ensures Added(w, w3) != [] && Added(w, w3)[0] == (name, v)
    ensures name in w3.store.installed && w3.store.installed[name] == v
  {
    assert w2.records[..|w.records|] == w.records;
    AddedSplit(w, w2, w3);
    assert Added(w, w2) == [(name, v)];
    RecordedNamesAppend(Added(w, w2), Added(w2, w3));
    assert RecordedNames([(name, v)]) == {name} by {
      assert [(name, v)][0].0 == name;
    }
    FreshAfterFirst((name, v), Added(w2, w3), w.store.installed.Keys - {name}, w2.store.installed.Keys);
  }

  /** A record of a name not yet taken, followed by records fresh with
      respect to a table that holds it. */
  lemma FreshAfterFirst(x: (string, string), b: seq<(string, string)>, taken: set<string>, table: set<string>)
    requires x.0 !in taken && taken + {x.0} <= table && FreshNames(b, table)
    ensures FreshNames([x] + b, taken)
  {
    var s := [x] + b;
    forall i | 0 <= i < |s|
      ensures s[i].0 !in taken && forall j :: 0 <= j < i ==> s[j].0 != s[i].0
    {
      if i > 0 {
        assert s[i] == b[i - 1];
        forall j | 0 <= j < i ensures s[j].0 != s[i].0 {
          if j > 0 { assert s[j] == b[j - 1]; }
        }
      }
    }
  }
}

=== FILE: installer_examples.dfy ===
/** Installs against small registries, worked through step by step. */
module InstallerExamples {
  import opened Common
  import Text
  import opened Utils
  import opened Config
  import opened Files
  import opened Installer

  /** What the archive of every release below unpacks to: a lone
      `metadata.json`. */
  const MetadataOnly: seq<Entry> := [Entry("metadata.json", File)]

  /** A release with one archive that downloads and unpacks to a lone
      `metadata.json` declaring one dependency, on the latest `dep`. */
  function DependsOn(dep: string): Release
  {
    Release([Item(FileItem, "package.zip")], true, Unpacked(MetadataOnly), [Dependency(dep, "latest")])
  }

  /** Two packages with one version each, each depending on the other. */
  function Cycle(a: string, b: string, va: string, vb: string): Registry
  {
    Registry(map[a := [Item(DirItem, va)], b := [Item(DirItem, vb)]],
             map[(a, va) := DependsOn(b), (b, vb) := DependsOn(a)])
  }

  /** One package listing one version whose release is `DependsOn(dep)`
      is readable. */
  lemma DependsOnReadable(name: string, v: string, dep: string)
    requires Numeric(v) && WfSpec("latest")
    ensures AllNumeric(AvailableVersions([Item(DirItem, v)]))
    ensures WfDependencies(DependsOn(dep).dependencies)
  {
    assert AvailableVersions([Item(DirItem, v)]) == [v];
  }

  lemma CycleReadable(a: string, b: string, va: string, vb: string)
    requires a != b && Numeric(va) && Numeric(vb) && WfSpec("latest")
    ensures WfRegistry(Cycle(a, b, va, vb))
    ensures Listing(Cycle(a, b, va, vb), a) == [Item(DirItem, va)]
    ensures Listing(Cycle(a, b, va, vb), b) == [Item(DirItem, vb)]
    ensures (a, va) in Cycle(a, b, va, vb).releases && Cycle(a, b, va, vb).releases[(a, va)] == DependsOn(b)
    ensures (b, vb) in Cycle(a, b, va, vb).releases && Cycle(a, b, va, vb).releases[(b, vb)] == DependsOn(a)
  {
    var reg := Cycle(a, b, va, vb);
    DependsOnReadable(a, va, b);
    DependsOnReadable(b, vb, a);
    forall name | name in reg.packages ensures AllNumeric(AvailableVersions(reg.packages[name])) {
      if name == a {
        assert reg.packages[name] == [Item(DirItem, va)];
      } else {
        assert reg.packages[name] == [Item(DirItem, vb)];
      }
    }
    forall key | key in reg.releases ensures WfDependencies(reg.releases[key].dependencies) {
      if key == (a, va) {
        assert reg.releases[key] == DependsOn(b);
      } else {
        assert reg.releases[key] == DependsOn(a);
      }
    }
  }

  /** Every release `DependsOn` builds downloads and unpacks cleanly, and
      the unpacked directory holds its `metadata.json`. */
  lemma DependsOnDeploys(reg: Registry, name: string, version: string, dep: string)
    requires (name, version) in reg.releases && reg.releases[(name, version)] == DependsOn(dep)
    ensures Deploys(reg, name, version)
    ensures Extract(reg.releases[(name, version)].unpacking) == Extracted(MetadataOnly, true)
    ensures Lookup(MetadataOnly, "metadata.json") == Some(File)
  {
    assert Text.EndsWith("package.zip", ".zip");
    assert IsArchiveName(DependsOn(dep).items[0].name);
    assert Names(MetadataOnly) == ["metadata.json"];
  }

  /** The world once the versions of `name` have been listed. */
  function Listed(w: World, name: string): World
  {
    w.(requests := w.requests + [ListVersions(name)])
  }

  /** The world once release `v` of `name` has been listed, downloaded and
      unpacked. */
  function Fetched(w: World, name: string, v: string): World
  {
    w.(requests := w.requests + [ListRelease(name, v), Download(name, v)], modules := w.modules[name := Dir(MetadataOnly)])
  }

  /** The world once `install_package` has listed, downloaded, unpacked and
      recorded `name` at `v`, before the dependencies are walked. */
  function Landed(w: World, name: string, v: string): World
  {
    Record(Fetched(Listed(w, name), name, v), name, v)
  }

  lemma FetchDependsOn(reg: Registry, w: World, name: string, v: string, dep: string)
    requires (name, v) in reg.releases && reg.releases[(name, v)] == DependsOn(dep)
    requires !Blocked(w.modules, name)
    ensures Fetch(reg, w, name, v) == Outcome(Fetched(w, name, v), true)
  {
    DependsOnDeploys(reg, name, v, dep);
    assert w.requests + [ListRelease(name, v)] + [Download(name, v)] == w.requests + [ListRelease(name, v), Download(name, v)];
  }

  /** Deploying a `DependsOn(dep)` release records it, then walks the one
      dependency. */
  lemma DeployDependsOn(reg: Registry, w: World, name: string, v: string, dep: string)
    requires WfRegistry(reg) && WfStore(w.store) && Numeric(v) && name in reg.packages
    requires (name, v) in reg.releases && reg.releases[(name, v)] == DependsOn(dep)
    requires !Blocked(w.modules, name)
    ensures WfStore(Record(Fetched(w, name, v), name, v).store)
    ensures Deploy(reg, w, name, v) == Outcome(WalkDeps(reg, Record(Fetched(w, name, v), name, v), [Dependency(dep, "latest")]), true)
  {
    DependsOnDeploys(reg, name, v, dep);
    FetchDependsOn(reg, w, name, v, dep);
    var w2 := Record(Fetched(w, name, v), name, v);
    assert w2.modules[name] == Dir(MetadataOnly);
    assert DependenciesOf(reg, w2, name, v) == [Dependency(dep, "latest")];
    assert InstallDependencies(reg, w2, name, v) == WalkDeps(reg, w2, [Dependency(dep, "latest")]);
  }

  /** With one version listed and `latest` asked for, a package that is not
      installed goes straight to deploying that version. */
  lemma InstallOnlyVersion(reg: Registry, w: World, name: string, v: string)
    requires WfRegistry(reg) && WfStore(w.store) && WfSpec("latest") && Numeric(v)
    requires Listing(reg, name) == [Item(DirItem, v)] && name !in w.store.installed
    ensures name in reg.packages
    ensures Install(reg, w, name, "latest") == Deploy(reg, Listed(w, name), name, v)
  {
    assert AvailableVersions([Item(DirItem, v)]) == [v];
    assert SelectVersion([v], "latest") == Some(v);
  }

  /** Installing the latest version of a package that is not installed,
      lists one version, and whose release is `DependsOn(dep)`: the version
      is recorded, then the dependency on `dep` is walked. */
  lemma InstallDependsOn(reg: Registry, w: World, name: string, v: string, dep: string)
    requires WfRegistry(reg) && WfStore(w.store) && WfSpec("latest") && Numeric(v)
    requires Listing(reg, name) == [Item(DirItem, v)]
    requires (name, v) in reg.releases && reg.releases[(name, v)] == DependsOn(dep)
    requires name !in w.store.installed && !Blocked(w.modules, name)
    ensures WfStore(Landed(w, name, v).store)
    ensures Install(reg, w, name, "latest") == Outcome(WalkDeps(reg, Landed(w, name, v), [Dependency(dep, "latest")]), true)
  {
    InstallOnlyVersion(reg, w, name, v);
    DeployDependsOn(reg, Listed(w, name), name, v, dep);
  }

  /** Walking a single dependency is the one step for it. */
  lemma WalkOne(reg: Registry, w: World, d: Dependency)
    requires WfRegistry(reg) && WfStore(w.store) && WfSpec(d.spec)
    ensures WalkDeps(reg, w, [d]) == InstallDependency(reg, w, d)
  {
    var w1 := InstallDependency(reg, w, d);
    assert [d][1..] == [];
    assert WalkDeps(reg, w1, []) == w1;
  }

  /** The second package of the cycle, reached while walking the first's
      dependencies: it is recorded, and the walk back to the first stops. */
  lemma CycleCloses(reg: Registry, w: World, a: string, b: string, vb: string)
    requires WfRegistry(reg) && WfStore(w.store) && WfSpec("latest") && Numeric(vb)
    requires Listing(reg, b) == [Item(DirItem, vb)]
    requires (b, vb) in reg.releases && reg.releases[(b, vb)] == DependsOn(a)
    requires a in w.store.installed && b !in w.store.installed && !Blocked(w.modules, b)
    ensures WalkDeps(reg, w, [Dependency(b, "latest")]) == Landed(w, b, vb)
  {
    WalkOne(reg, w, Dependency(b, "latest"));
    assert InstallDependency(reg, w, Dependency(b, "latest")) == Install(reg, w, b, "latest").world;
    InstallDependsOn(reg, w, b, vb, a);
    var wb := Landed(w, b, vb);
    WalkOne(reg, wb, Dependency(a, "latest"));
    assert IsInstalled(wb.store, a, None);
  }

  /** Landing a package records it, and only it. */
  lemma LandedRecords(w: World, name: string, v: string, other: string)
    requires WfStore(w.store) && Numeric(v) && name != other
    ensures Landed(w, name, v).records == w.records + [(name, v)]
    ensures name in Landed(w, name, v).store.installed
    ensures other in Landed(w, name, v).store.installed <==> other in w.store.installed
  {
  }

  /** Two packages landed one after the other are recorded in that order. */
  lemma LandedTwice(w: World, a: string, va: string, b: string, vb: string)
    requires WfStore(w.store) && Numeric(va) && Numeric(vb) && a != b
    ensures var w2 := Landed(Landed(w, a, va), b, vb);
            |w.records| <= |w2.records| && Added(w, w2) == [(a, va), (b, vb)]
  {
    LandedRecords(w, a, va, b);
    LandedRecords(Landed(w, a, va), b, vb, a);
    var w2 := Landed(Landed(w, a, va), b, vb);
    assert w2.records == w.records + [(a, va), (b, vb)];
  }

  /** The install of `a` against any registry laid out like `Cycle`. */
  lemma CycleInstall(reg: Registry, w: World, a: string, b: string, va: string, vb: string)
    requires a != b && Numeric(va) && Numeric(vb) && WfSpec("latest") && WfRegistry(reg)
    requires Listing(reg, a) == [Item(DirItem, va)] && Listing(reg, b) == [Item(DirItem, vb)]
    requires (a, va) in reg.releases && reg.releases[(a, va)] == DependsOn(b)
    requires (b, vb) in reg.releases && reg.releases[(b, vb)] == DependsOn(a)
    requires WfStore(w.store) && a !in w.store.installed && b !in w.store.installed
    requires !Blocked(w.modules, a) && !Blocked(w.modules, b)
    ensures Install(reg, w, a, "latest") == Outcome(Landed(Landed(w, a, va), b, vb), true)
  {
    InstallDependsOn(reg, w, a, va, b);
    LandedRecords(w, a, va, b);
    CycleCloses(reg, Landed(w, a, va), a, b, vb);
  }

  /** Installing one of two packages that depend on each other terminates
      with both recorded, each exactly once: the first when its archive is
      unpacked, the second while walking the first's dependencies; the walk
      of the second's dependencies finds the first installed and stops. */
  lemma MutualDependencies(a: string, b: string, va: string, vb: string, w: World)
    requires a != b && Numeric(va) && Numeric(vb) && WfSpec("latest")
    requires WfStore(w.store) && a !in w.store.installed && b !in w.store.installed
    requires !Blocked(w.modules, a) && !Blocked(w.modules, b)
    ensures WfRegistry(Cycle(a, b, va, vb))
    ensures var r := Install(Cycle(a, b, va, vb), w, a, "latest");
            r.ok && Added(w, r.world) == [(a, va), (b, vb)]
  {
    CycleReadable(a, b, va, vb);
    CycleInstall(Cycle(a, b, va, vb), w, a, b, va, vb);
    LandedTwice(w, a, va, b, vb);
  }
}

=== FILE: loader.dfy ===
/** The module loader (snakeer/loader.py): `require` finds a package's entry
    file under `snakeer_modules` and records the loaded module in the module
    cache (`sys.modules`); `require_all` loads every package directory;
    `reload` evicts a package from the cache and requires it again.

    Executing the entry file is not modelled: a loaded module is the pair of
    the package name and the entry file it was loaded from. */
module Loader {
  import opened Common
  import Text
  import opened Files

  datatype Module = Module(name: string, entry: string)

  /** Why `require` raises: no such package (`ImportError`), no Python file
      in it (`ImportError`), or a package path that is a file, which makes
      `os.listdir` raise `NotADirectoryError`. */
  datatype LoadError = NotFound | NoModule | NotADirectory

  type Cache = map<string, Module>

  predicate IsPython(n: string)
  {
    Text.EndsWith(n, ".py")
  }

  lemma PyNameIsPython(name: string)
    ensures IsPython(name + ".py")
  {
    assert (name + ".py")[|name + ".py"| - 3..] == ".py";
  }

  /** The entry file of a package directory: `index.py` whenever it exists;
      otherwise `<name>.py` if present; otherwise the first entry of the
      listing whose name ends in `.py`; none if there is no such entry. */
  function EntryFile(listing: seq<Entry>, name: string): (r: Option<string>)
    ensures Exists(listing, "index.py") ==> r == Some("index.py")
    ensures !Exists(listing, "index.py") && Exists(listing, name + ".py") ==> r == Some(name + ".py")
    ensures r.None? <==> forall i :: 0 <= i < |listing| ==> !IsPython(listing[i].name)
    ensures r.Some? ==> IsPython(r.value) && Exists(listing, r.value)
    ensures r.Some? && !Exists(listing, "index.py") && !Exists(listing, name + ".py") ==>
              exists k :: 0 <= k < |listing| && listing[k].name == r.value &&
                forall j :: 0 <= j < k ==> !IsPython(listing[j].name)
  {
    assert IsPython("index.py");
    PyNameIsPython(name);
    if Exists(listing, "index.py") then
      Some("index.py")
    else if Exists(listing, name + ".py") then
      Some(name + ".py")
    else
      match FirstMatch(listing, (e: Entry) => IsPython(e.name))
      case None => None
      case Some(i) =>
        assert Names(listing)[i] == listing[i].name;
        Some(listing[i].name)
  }

  /** What `require(name)` returns or raises against the modules directory
      (`None` when it does not exist); the cache plays no part in it. */
  function Resolve(modules: Option<seq<Entry>>, name: string): (r: Result<Module, LoadError>)
    ensures r == Err(NotFound) <==> modules.None? || !Exists(modules.value, name)
    ensures r == Err(NotADirectory) <==> modules.Some? && Lookup(modules.value, name) == Some(File)
    ensures r.Ok? ==> r.value.name == name
    ensures modules.Some? && Lookup(modules.value, name).Some? && Lookup(modules.value, name).value.Dir? ==>
              var entry := EntryFile(Lookup(modules.value, name).value.entries, name);
              (r.Ok? <==> entry.Some?) && (r.Ok? ==> r.value.entry == entry.value)
  {
    if modules.None? then Err(NotFound)
    else
      match Lookup(modules.value, name)
      case None => Err(NotFound)
      case Some(File) => Err(NotADirectory)
      case Some(Dir(es)) =>
        match EntryFile(es, name)
        case None => Err(NoModule)
        case Some(entry) => Ok(Module(name, entry))
  }

  /** `require(name)`: the module is entered in the cache (`sys.modules`)
      once it is found; a failure leaves the cache as it was. */
  function Require(modules: Option<seq<Entry>>, name: string, cache: Cache): (r: (Result<Module, LoadError>, Cache))
    ensures r.0 == Resolve(modules, name)
    ensures r.0.Err? ==> r.1 == cache
    ensures r.0.Ok? ==> r.1 == cache[name := r.0.value]
  {
    match Resolve(modules, name)
    case Err(e) => (Err(e), cache)
    case Ok(m) => (Ok(m), cache[name := m])
  }

  /** A directory listing names every entry once. */
  predicate DistinctNames(listing: seq<Entry>)
  {
    forall i, j :: 0 <= i < j < |listing| ==> listing[i].name != listing[j].name
  }

  /** The package directory of the modules listing called `name` loads. */
  predicate Loads(listing: seq<Entry>, name: string)
  {
    exists i :: 0 <= i < |listing| && listing[i].name == name && listing[i].node.Dir? &&
      EntryFile(listing[i].node.entries, name).Some?
  }

  /** `require_all`: nothing when the modules directory is missing;
      otherwise every directory entry is required in listing order, and the
      result maps exactly the names that loaded, each to what `require`
      returns for it. */
  function RequireAll(modules: Option<seq<Entry>>, cache: Cache): (r: (map<string, Module>, Cache))
    requires modules.Some? ==> DistinctNames(modules.value)
    ensures modules.None? ==> r == (map[], cache)
    ensures modules.Some? ==> forall n :: n in r.0 <==> Loads(modules.value, n)
    ensures forall n :: n in r.0 ==> Resolve(modules, n) == Ok(r.0[n]) && n in r.1 && r.1[n] == r.0[n]
    ensures CacheFramed(r.0, cache, r.1)
  {
    if modules.None? then (map[], cache)
    else
      var all := modules.value;
      assert forall n :: Loads(all, n) ==> n in Names(all) by {
        forall n | Loads(all, n) ensures n in Names(all) {
          var i :| 0 <= i < |all| && all[i].name == n && all[i].node.Dir? && EntryFile(all[i].node.entries, n).Some?;
          assert Names(all)[i] == n;
        }
      }
      LoadEach(all, all, map[], cache)
  }

  /** What the loop of `require_all` keeps: every name loaded so far is a
      package that loads, mapped to what `require` returns for it, and the
      cache holds the same module under that name. */
  predicate Consistent(all: seq<Entry>, loaded: map<string, Module>, cache: Cache)
  {
    forall n :: n in loaded ==> Loads(all, n) && Resolve(Some(all), n) == Ok(loaded[n]) && n in cache && cache[n] == loaded[n]
  }

  /** Outside the names in `loaded`, the cache is as it was: a `require`
      that fails writes nothing. */
  predicate CacheFramed(loaded: map<string, Module>, before: Cache, after: Cache)
  {
    && (forall n :: n in before && n !in loaded ==> n in after && after[n] == before[n])
    && (forall n :: n in after && n !in loaded ==> n in before)
  }

  /** The loop of `require_all` over the entries still to visit. */
  function LoadEach(all: seq<Entry>, todo: seq<Entry>, loaded: map<string, Module>, cache: Cache): (r: (map<string, Module>, Cache))
    requires DistinctNames(all) && Consistent(all, loaded, cache)
    requires forall e :: e in todo ==> e in all
    ensures forall n :: n in r.0 <==> n in loaded || (n in Names(todo) && Loads(all, n))
    ensures Consistent(all, r.0, r.1)
    ensures CacheFramed(r.0, cache, r.1)
    decreases |todo|
  {
    if todo == [] then (loaded, cache)
    else
      var e := todo[0];
      var step := LoadOne(all, e, loaded, cache);
      assert forall x :: x in todo[1..] ==> x in todo;
      assert forall n :: n in Names(todo) <==> n == e.name || n in Names(todo[1..]) by {
        assert Names(todo) == [e.name] + Names(todo[1..]);
      }
      LoadEach(all, todo[1..], step.0, step.1)
  }

  /** One iteration of the loop of `require_all`: a directory entry is
      required, and kept when it loads; any other entry is passed over. */
  function LoadOne(all: seq<Entry>, e: Entry, loaded: map<string, Module>, cache: Cache): (r: (map<string, Module>, Cache))
    requires DistinctNames(all) && e in all && Consistent(all, loaded, cache)
    ensures forall n :: n in r.0 <==> n in loaded || (n == e.name && Loads(all, n))
    ensures Consistent(all, r.0, r.1)
    ensures CacheFramed(r.0, cache, r.1)
  {
    LoadsAt(all, e);
    if e.node.Dir? then
      var (res, cache') := Require(Some(all), e.name, cache);
      match res
      case Ok(m) =>
        ConsistentAdd(all, loaded, cache, e.name, m);
        (loaded[e.name := m], cache')
      case Err(_) => (loaded, cache')
    else (loaded, cache)
  }

  lemma ConsistentAdd(all: seq<Entry>, loaded: map<string, Module>, cache: Cache, name: string, m: Module)
    requires Consistent(all, loaded, cache)
    requires Loads(all, name) && Resolve(Some(all), name) == Ok(m)
    ensures Consistent(all, loaded[name := m], cache[name := m])
  {
    var loaded', cache' := loaded[name := m], cache[name := m];
    forall n | n in loaded'
      ensures Loads(all, n) && Resolve(Some(all), n) == Ok(loaded'[n]) && n in cache' && cache'[n] == loaded'[n]
    {
      if n != name {
        assert loaded'[n] == loaded[n] && cache'[n] == cache[n];
      }
    }
  }

  /** Whether an entry of the modules listing loads is decided by that
      entry alone. */
  lemma LoadsAt(all: seq<Entry>, e: Entry)
    requires DistinctNames(all) && e in all
    ensures Loads(all, e.name) <==> e.node.Dir? && EntryFile(e.node.entries, e.name).Some?
    ensures Lookup(all, e.name) == Some(e.node)
  {
    var i :| 0 <= i < |all| && all[i] == e;
    var k := FirstMatch(all, (x: Entry) => x.name == e.name);
    assert Names(all)[i] == e.name;
    assert k.Some? && all[k.value] == e;
  }

  /** `reload(name)`: evict `name` from the cache, then `require` it. */
  function Reload(modules: Option<seq<Entry>>, name: string, cache: Cache): (r: (Result<Module, LoadError>, Cache))
    ensures r.0 == Resolve(modules, name)
    ensures r.0.Err? ==> name !in r.1
    ensures r.0.Ok? ==> name in r.1 && r.1[name] == r.0.value
    ensures forall n :: n != name ==> (n in r.1 <==> n in cache) && (n in cache ==> r.1[n] == cache[n])
  {
    Require(modules, name, cache - {name})
  }
}

=== FILE: publish.dfy ===
/** What `publish` (snakeer/installer.py) puts into the package archive: a
    top-down walk of the project directory that prunes excluded directory
    names and skips compiled Python files. A path is the sequence of names
    from the project directory down to a file, as the archive name
    `relpath(file, project)` spells it. */
module Publish {
  import Text
  import opened Files

  type Path = seq<string>

  /** The directory names the walk never enters. */
  const ExcludedDirs: seq<string> :=
    [".git", ".snakeer_cache", "snakeer_modules", "__pycache__", ".venv", "venv", "node_modules"]

  predicate Excluded(dir: string)
  {
    dir in ExcludedDirs
  }

  /** Compiled files are left out of the archive. */
  predicate Skipped(file: string)
  {
    Text.EndsWith(file, ".pyc") || Text.EndsWith(file, ".pyo") || Text.EndsWith(file, ".pyd")
  }

  /** The archive names of one directory level, in walk order: the kept
      files of the directory, then each kept subdirectory's walk. */
  function Walk(entries: seq<Entry>): (r: seq<Path>)
    ensures forall p :: p in r ==> p != []
    ensures forall p :: p in r && |p| == 1 <==> |p| == 1 && !Skipped(p[0]) && Entry(p[0], File) in entries
    decreases entries, 1
  {
    LocalFiles(entries) + WalkDirs(entries)
  }

  /** The files of one directory that are archived, in listing order. */
  function LocalFiles(entries: seq<Entry>): (r: seq<Path>)
    ensures forall p :: p in r <==> |p| == 1 && !Skipped(p[0]) && Entry(p[0], File) in entries
  {
    if entries == [] then []
    else
      var rest := LocalFiles(entries[1..]);
      assert forall e :: e in entries <==> e == entries[0] || e in entries[1..];
      assert forall p: Path :: |p| == 1 ==> p == [p[0]];
      if entries[0].node.File? && !Skipped(entries[0].name) then [[entries[0].name]] + rest else rest
  }

  /** The walks of the subdirectories that are not pruned, in listing order. */
  function WalkDirs(entries: seq<Entry>): (r: seq<Path>)
    ensures forall p :: p in r ==> |p| > 1
    decreases entries, 0
  {
    if entries == [] then []
    else
      var e := entries[0];
      var here := if e.node.Dir? && !Excluded(e.name) then Under(e.name, Walk(e.node.entries)) else [];
      here + WalkDirs(entries[1..])
  }

  /** `os.path.join(dir, p)` for every path of `ps`. */
  function Under(dir: string, ps: seq<Path>): (r: seq<Path>)
    ensures forall p :: p in r <==> p != [] && p[0] == dir && p[1..] in ps
  {
    if ps == [] then []
    else
      var rest := Under(dir, ps[1..]);
      assert ([dir] + ps[0])[1..] == ps[0];
      assert forall q :: q in ps <==> q == ps[0] || q in ps[1..];
      assert forall p :: p != [] && p[0] == dir && p[1..] == ps[0] ==> p == [dir] + ps[0];
      [[dir] + ps[0]] + rest
  }

  /** A path that leads through directories of the tree to a file. */
  predicate FileAt(entries: seq<Entry>, p: Path)
    decreases entries
  {
    && p != []
    && exists i :: 0 <= i < |entries| && entries[i].name == p[0] &&
         if |p| == 1 then entries[i].node.File?
         else entries[i].node.Dir? && FileAt(entries[i].node.entries, p[1..])
  }

  /** No directory on the path is excluded and the file is not skipped. */
  predicate Archived(p: Path)
  {
    && p != []
    && !Skipped(p[|p| - 1])
    && forall k :: 0 <= k < |p| - 1 ==> !Excluded(p[k])
  }

  /** A path is archived exactly when it names a file of the tree, the
      file is not a compiled one, and no directory on the way is excluded. */
  lemma {:induction false} WalkArchives(entries: seq<Entry>, p: Path)
    ensures p in Walk(entries) <==> FileAt(entries, p) && Archived(p)
    decreases entries, 1
  {
    if p in LocalFiles(entries) {
      var i :| 0 <= i < |entries| && entries[i] == Entry(p[0], File);
      assert FileAt(entries, p);
    }
    WalkDirsArchives(entries, p);
    if FileAt(entries, p) && Archived(p) && |p| == 1 {
      var i :| 0 <= i < |entries| && entries[i].name == p[0] && entries[i].node.File?;
      assert entries[i] == Entry(p[0], File);
    }
  }

  lemma {:induction false} WalkDirsArchives(entries: seq<Entry>, p: Path)
    ensures p in WalkDirs(entries) <==> |p| > 1 && FileAt(entries, p) && Archived(p)
    decreases entries, 0
  {
    if entries != [] {
      var e := entries[0];
      var here := if e.node.Dir? && !Excluded(e.name) then Under(e.name, Walk(e.node.entries)) else [];
      assert WalkDirs(entries) == here + WalkDirs(entries[1..]);
      WalkDirsArchives(entries[1..], p);
      HereArchives(e, p);
      FileAtCons(entries, p);
      assert p in WalkDirs(entries) <==> p in here || p in WalkDirs(entries[1..]);
    }
  }

  /** The archive names one subdirectory contributes. */
  lemma {:induction false} HereArchives(e: Entry, p: Path)
    ensures var here := if e.node.Dir? && !Excluded(e.name) then Under(e.name, Walk(e.node.entries)) else [];
            p in here <==> |p| > 1 && p[0] == e.name && e.node.Dir? && FileAt(e.node.entries, p[1..]) && Archived(p)
    decreases e, 0
  {
    if e.node.Dir? && !Excluded(e.name) && p != [] && p[0] == e.name {
      WalkArchives(e.node.entries, p[1..]);
      if |p| > 1 {
        ArchivedTail(p);
      }
    }
    if |p| > 1 && p[0] == e.name && Excluded(e.name) {
      assert !Archived(p);
    }
  }

  /** `FileAt` on a listing splits into its first entry and the rest. */
  lemma FileAtCons(entries: seq<Entry>, p: Path)
    requires entries != []
    ensures FileAt(entries, p) <==>
              || (p != [] && entries[0].name == p[0] &&
                  if |p| == 1 then entries[0].node.File?
                  else entries[0].node.Dir? && FileAt(entries[0].node.entries, p[1..]))
              || FileAt(entries[1..], p)
  {
    if FileAt(entries, p) {
      var i :| 0 <= i < |entries| && entries[i].name == p[0] &&
               if |p| == 1 then entries[i].node.File?
               else entries[i].node.Dir? && FileAt(entries[i].node.entries, p[1..]);
      if i > 0 {
        assert entries[1..][i - 1] == entries[i];
      }
    }
    if FileAt(entries[1..], p) {
      var i :| 0 <= i < |entries[1..]| && entries[1..][i].name == p[0] &&
               if |p| == 1 then entries[1..][i].node.File?
               else entries[1..][i].node.Dir? && FileAt(entries[1..][i].node.entries, p[1..]);
      assert entries[i + 1] == entries[1..][i];
    }
  }

  lemma ArchivedTail(p: Path)
    requires |p| > 1
    ensures Archived(p) <==> !Excluded(p[0]) && Archived(p[1..])
  {
    if !Excluded(p[0]) && Archived(p[1..]) {
      forall k | 0 <= k < |p| - 1 ensures !Excluded(p[k]) {
        if k > 0 { assert p[k] == p[1..][k - 1]; }
      }
    }
  }
}

=== FILE: text.dfy ===
/** The handful of Python `str` builtins the package manager relies on:
    `isspace`, `strip`, `startswith`, `endswith`, `split` and `"sep".join`. */
module Text {

  /** Python's `str.isspace` for one character: the C0 separators, the ASCII
      blanks, NEL, NO-BREAK SPACE and the Unicode space separators. */
  predicate IsSpace(c: char)
  {
    || ('\U{9}' <= c <= '\U{D}') || ('\U{1C}' <= c <= '\U{20}')
    || c == '\U{85}' || c == '\U{A0}' || c == '\U{1680}'
    || ('\U{2000}' <= c <= '\U{200A}') || c == '\U{2028}' || c == '\U{2029}'
    || c == '\U{202F}' || c == '\U{205F}' || c == '\U{3000}'
  }

  /** A string with no whitespace at either end: what `strip` produces. */
  predicate Stripped(s: string)
  {
    s == [] || (!IsSpace(s[0]) && !IsSpace(s[|s| - 1]))
  }

  function TrimStart(s: string): (r: string)
    ensures |r| <= |s| && r == s[|s| - |r|..]
    ensures forall i :: 0 <= i < |s| - |r| ==> IsSpace(s[i])
    ensures r == [] || !IsSpace(r[0])
  {
    if s != [] && IsSpace(s[0]) then TrimStart(s[1..]) else s
  }

  function TrimEnd(s: string): (r: string)
    ensures |r| <= |s| && r == s[..|r|]
    ensures forall i :: |r| <= i < |s| ==> IsSpace(s[i])
    ensures r == [] || !IsSpace(r[|r| - 1])
  {
    if s != [] && IsSpace(s[|s| - 1]) then TrimEnd(s[..|s| - 1]) else s
  }

  /** Python's `str.strip()` with no argument. */
  function Strip(s: string): (r: string)
    ensures Stripped(r)
    ensures |r| <= |s|
  {
    var t := TrimStart(s);
    var r := TrimEnd(t);
    assert r == [] || (r[0] == t[0] && !IsSpace(r[0]));
    r
  }

  /** Stripping a string that has no whitespace at its ends changes nothing;
      in particular `Strip` is idempotent. */
  lemma {:induction false} StripStripped(s: string)
    requires Stripped(s)
    ensures Strip(s) == s
  {
    assert TrimStart(s) == s;
  }

  lemma StripIdempotent(s: string)
    ensures Strip(Strip(s)) == Strip(s)
  {
    StripStripped(Strip(s));
  }

  predicate StartsWith(s: string, prefix: string)
  {
    |prefix| <= |s| && s[..|prefix|] == prefix
  }

  predicate EndsWith(s: string, suffix: string)
  {
    |suffix| <= |s| && s[|s| - |suffix|..] == suffix
  }

  /** `sep.join(parts)`. */
  function Join(parts: seq<string>, sep: char): string
  {
    if parts == [] then []
    else if |parts| == 1 then parts[0]
    else parts[0] + [sep] + Join(parts[1..], sep)
  }

  /** `s.split(sep)` for a one-character separator: always at least one
      piece, the pieces hold no separator, and joining them gives `s` back. */
  function Split(s: string, sep: char): (parts: seq<string>)
    ensures |parts| >= 1
    ensures forall i :: 0 <= i < |parts| ==> sep !in parts[i]
    ensures Join(parts, sep) == s
  {
    if s == [] then [[]]
    else
      var rest := Split(s[1..], sep);
      if s[0] == sep then
        assert s == [sep] + Join(rest, sep);
        [[]] + rest
      else
        var parts := [[s[0]] + rest[0]] + rest[1..];
        assert parts[1..] == rest[1..];
        assert Join(parts, sep) == [s[0]] + Join(rest, sep) by {
          if |rest| > 1 {
            assert Join(rest, sep) == rest[0] + [sep] + Join(rest[1..], sep);
          }
        }
        parts
  }

  /** The converse round trip: splitting a join of separator-free pieces
      gives the pieces back. */
  lemma {:induction false} SplitJoin(parts: seq<string>, sep: char)
    requires |parts| >= 1
    requires forall i :: 0 <= i < |parts| ==> sep !in parts[i]
    ensures Split(Join(parts, sep), sep) == parts
    decreases |parts|, |parts[0]|
  {
    var p0 := parts[0];
    if |parts| == 1 {
      SplitNoSep(p0, sep);
    } else if p0 == [] {
      var s := Join(parts, sep);
      assert s == [sep] + Join(parts[1..], sep);
      assert s[1..] == Join(parts[1..], sep);
      SplitJoin(parts[1..], sep);
      assert [[]] + parts[1..] == parts;
    } else {
      var s := Join(parts, sep);
      var shorter := [p0[1..]] + parts[1..];
      assert shorter[1..] == parts[1..];
      assert Join(shorter, sep) == s[1..];
      SplitJoin(shorter, sep);
      assert p0[0] in p0;
      assert s == p0 + [sep] + Join(parts[1..], sep);
      assert s[0] == p0[0] && s[0] != sep;
      var rest := Split(s[1..], sep);
      assert rest == shorter;
      assert [s[0]] + rest[0] == p0;
      assert [[s[0]] + rest[0]] + rest[1..] == parts;
    }
  }

  lemma {:induction false} SplitNoSep(s: string, sep: char)
    requires sep !in s
    ensures Split(s, sep) == [s]
  {
    if s != [] {
      assert s[0] in s;
      assert forall c :: c in s[1..] ==> c in s;
      SplitNoSep(s[1..], sep);
      assert [s[0]] + s[1..] == s;
    }
  }
}

=== FILE: utils.dfy ===
/** Version specifications (snakeer/utils.py): parsing a spec text into an
    operator and a version, deciding whether a version satisfies a spec, and
    picking the best satisfying version from a list.

    Versions are dot-separated digit strings. Python's `int()` raises on
    anything else; the model makes that a precondition (`Numeric`). */
module Utils {
  import opened Common
  import opened Text

  /** The five operators `parse_version_spec` distinguishes. */
  datatype Op = AtLeast | Caret | Tilde | Latest | Exact

  /** The `(operator, version)` pair `parse_version_spec` returns. */
  datatype Spec = Spec(op: Op, version: string)

  /** The operator string Python returns for each operator. */
  function OpText(op: Op): string
  {
    match op
    case AtLeast => ">="
    case Caret => "^"
    case Tilde => "~"
    case Latest => "latest"
    case Exact => "="
  }

  /** The operators that compare padded numeric keys. */
  predicate Ranged(op: Op)
  {
    op == AtLeast || op == Caret || op == Tilde
  }

  /** `parse_version_spec`: strip, then classify the stripped text. */
  function ParseVersionSpec(text: string): (r: Spec)
    ensures var t := Strip(text);
      && (r.op == AtLeast <==> StartsWith(t, ">="))
      && (r.op == Caret <==> StartsWith(t, "^"))
      && (r.op == Tilde <==> StartsWith(t, "~"))
      && (r.op == Latest <==> t == "latest")
      && (Ranged(r.op) ==> OpText(r.op) + r.version == t)
      && (r.op == Latest ==> r.version == "")
      && (r.op == Exact ==> r.version == t)
  {
    Classify(Strip(text))
  }

  /** Test the prefixes `>=`, `^`, `~` in that order, then the literal
      `latest`; anything else is an exact version made of the whole text. */
  function Classify(t: string): (r: Spec)
    ensures r.op == AtLeast <==> StartsWith(t, ">=")
    ensures r.op == Caret <==> StartsWith(t, "^")
    ensures r.op == Tilde <==> StartsWith(t, "~")
    ensures r.op == Latest <==> t == "latest"
    ensures Ranged(r.op) ==> OpText(r.op) + r.version == t
    ensures r.op == Latest ==> r.version == ""
    ensures r.op == Exact ==> r.version == t
  {
    if StartsWith(t, ">=") then
      assert t == t[..2] + t[2..] && t[0] == t[..2][0] == '>';
      NotPrefixByHead(t, "^");
      NotPrefixByHead(t, "~");
      Spec(AtLeast, t[2..])
    else if StartsWith(t, "^") then
      assert t == t[..1] + t[1..] && t[0] == t[..1][0] == '^';
      NotPrefixByHead(t, "~");
      Spec(Caret, t[1..])
    else if StartsWith(t, "~") then
      assert t == t[..1] + t[1..] && t[0] == t[..1][0];
      Spec(Tilde, t[1..])
    else if t == "latest" then Spec(Latest, "")
    else Spec(Exact, t)
  }

  /** Writes a spec back as text: the inverse of `ParseVersionSpec`. */
  function FormatSpec(s: Spec): string
  {
    match s.op
    case Latest => "latest"
    case Exact => s.version
    case _ => OpText(s.op) + s.version
  }

  /** Specs that parsing can produce and that format back unambiguously. */
  predicate Canonical(s: Spec)
  {
    match s.op
    case Latest => s.version == ""
    case Exact =>
      && Stripped(s.version) && s.version != "latest"
      && !StartsWith(s.version, ">=") && !StartsWith(s.version, "^") && !StartsWith(s.version, "~")
    case _ => s.version == [] || !IsSpace(s.version[|s.version| - 1])
  }

  /** Parsing loses nothing but surrounding whitespace. */
  lemma FormatParse(text: string)
    ensures FormatSpec(ParseVersionSpec(text)) == Strip(text)
    ensures Canonical(ParseVersionSpec(text))
  {
    var t := Strip(text);
    var r := ParseVersionSpec(text);
    if Ranged(r.op) {
      assert t == OpText(r.op) + r.version;
      if r.version != [] {
        assert r.version[|r.version| - 1] == t[|t| - 1];
      }
    }
  }

  /** Formatting a canonical spec and parsing it again gives the spec back. */
  lemma ParseFormat(s: Spec)
    requires Canonical(s)
    ensures ParseVersionSpec(FormatSpec(s)) == s
  {
    if Ranged(s.op) {
      ParseFormatRanged(s);
    } else if s.op == Latest {
      StripStripped("latest");
      assert ParseVersionSpec("latest").op == Latest;
    } else {
      StripStripped(s.version);
      assert FormatSpec(s) == s.version;
    }
  }

  lemma ParseFormatRanged(s: Spec)
    requires Ranged(s.op) && Canonical(s)
    ensures ParseVersionSpec(FormatSpec(s)) == s
  {
    match s.op {
      case AtLeast => ParseAtLeastText(s.version);
      case Caret => ParseCaretText(s.version);
      case Tilde => ParseTildeText(s.version);
    }
  }

  /** An operator followed by a version with no trailing space has no
      whitespace at either end. */
  lemma StrippedJoin(o: string, v: string)
    requires o != [] && Stripped(o)
    requires v == [] || !IsSpace(v[|v| - 1])
    ensures Stripped(o + v)
  {
    var f := o + v;
    assert f[0] == o[0];
    if v != [] {
      assert f[|f| - 1] == v[|v| - 1];
    } else {
      assert f == o;
    }
  }

  lemma ParseAtLeastText(v: string)
    requires v == [] || !IsSpace(v[|v| - 1])
    ensures ParseVersionSpec(">=" + v) == Spec(AtLeast, v)
  {
    StrippedJoin(">=", v);
    ParseStrippedText(">=" + v);
    ClassifyAtLeast(">=" + v, v);
  }

  lemma ParseCaretText(v: string)
    requires v == [] || !IsSpace(v[|v| - 1])
    ensures ParseVersionSpec("^" + v) == Spec(Caret, v)
  {
    StrippedJoin("^", v);
    ParseStrippedText("^" + v);
    ClassifyCaret("^" + v, v);
  }

  lemma ParseTildeText(v: string)
    requires v == [] || !IsSpace(v[|v| - 1])
    ensures ParseVersionSpec("~" + v) == Spec(Tilde, v)
  {
    StrippedJoin("~", v);
    ParseStrippedText("~" + v);
    ClassifyTilde("~" + v, v);
  }

  /** Text with no surrounding whitespace is classified as it stands. */
  lemma ParseStrippedText(f: string)
    requires Stripped(f)
    ensures ParseVersionSpec(f) == Classify(f)
  {
    StripStripped(f);
  }

  lemma ClassifyAtLeast(f: string, v: string)
    requires f == ">=" + v
    ensures Classify(f) == Spec(AtLeast, v)
  {
    assert f[..2] == ">=";
  }

  lemma ClassifyCaret(f: string, v: string)
    requires f == "^" + v
    ensures Classify(f) == Spec(Caret, v)
  {
    NotPrefixByHead(f, ">=");
    assert f[..1] == "^";
  }

  lemma ClassifyTilde(f: string, v: string)
    requires f == "~" + v
    ensures Classify(f) == Spec(Tilde, v)
  {
    NotPrefixByHead(f, ">=");
    NotPrefixByHead(f, "^");
    assert f[..1] == "~";
  }

  /** A string does not start with a prefix whose first character differs
      from its own. */
  lemma NotPrefixByHead(s: string, prefix: string)
    requires s != [] && prefix != [] && s[0] != prefix[0]
    ensures !StartsWith(s, prefix)
  {
    if |prefix| <= |s| {
      assert s[..|prefix|][0] == s[0];
    }
  }

  predicate IsDigit(c: char)
  {
    '0' <= c <= '9'
  }

  predicate AllDigits(s: string)
  {
    forall i :: 0 <= i < |s| ==> IsDigit(s[i])
  }

  /** A string `int()` accepts in the model: one or more ASCII digits. */
  predicate IsDigits(s: string)
  {
    s != [] && AllDigits(s)
  }

  /** A version every component of which `int()` converts. */
  predicate Numeric(v: string)
  {
    var parts := Split(v, '.');
    forall i :: 0 <= i < |parts| ==> IsDigits(parts[i])
  }

  /** A spec text whose version the comparisons can convert. */
  predicate WfSpec(spec: string)
  {
    var s := ParseVersionSpec(spec);
    Ranged(s.op) ==> Numeric(s.version)
  }

  /** `int(s)` for a string of decimal digits (leading zeros allowed). */
  function DigitsValue(s: string): nat
    requires AllDigits(s)
  {
    if s == [] then 0
    else DigitsValue(s[..|s| - 1]) * 10 + DigitValue(s[|s| - 1])
  }

  function DigitValue(c: char): nat
    requires IsDigit(c)
  {
    assert '0' as int <= c as int;
    c as int - '0' as int
  }

  function Values(parts: seq<string>): (r: seq<nat>)
    requires forall i :: 0 <= i < |parts| ==> IsDigits(parts[i])
    ensures |r| == |parts|
    ensures forall i :: 0 <= i < |parts| ==> IsDigits(parts[i]) && r[i] == DigitsValue(parts[i])
  {
    if parts == [] then []
    else
      assert IsDigits(parts[0]);
      [DigitsValue(parts[0])] + Values(parts[1..])
  }

  /** `[int(x) for x in v.split(".")]`. */
  function Parts(v: string): (r: seq<nat>)
    requires Numeric(v)
    ensures |r| == |Split(v, '.')| >= 1
  {
    Values(Split(v, '.'))
  }

  /** Appending zeros until there are at least three components. */
  function Pad(xs: seq<nat>): (r: seq<nat>)
    ensures |r| == if |xs| < 3 then 3 else |xs|
    ensures r[..|xs|] == xs
    ensures forall i :: |xs| <= i < |r| ==> r[i] == 0
    decreases 3 - |xs|
  {
    if |xs| < 3 then Pad(xs + [0]) else xs
  }

  /** The padded comparison key of a version (`version_key`): its
      components in order, then zeros up to three components. */
  function Key(v: string): (r: seq<nat>)
    requires Numeric(v)
    ensures |r| == if |Split(v, '.')| < 3 then 3 else |Split(v, '.')|
    ensures r[..|Split(v, '.')|] == Parts(v)
    ensures forall i :: |Split(v, '.')| <= i < |r| ==> r[i] == 0
  {
    Pad(Parts(v))
  }

  /** Python's `a <= b` on lists of integers: lexicographic, a proper prefix
      being smaller. */
  predicate LexLe(a: seq<nat>, b: seq<nat>)
  {
    if a == [] then true
    else if b == [] then false
    else if a[0] != b[0] then a[0] < b[0]
    else LexLe(a[1..], b[1..])
  }

  lemma {:induction false} LexLeRefl(a: seq<nat>)
    ensures LexLe(a, a)
  {
    if a != [] {
      LexLeRefl(a[1..]);
    }
  }

  lemma {:induction false} LexLeAntisym(a: seq<nat>, b: seq<nat>)
    requires LexLe(a, b) && LexLe(b, a)
    ensures a == b
  {
    if a != [] && b != [] {
      LexLeAntisym(a[1..], b[1..]);
      assert a == [a[0]] + a[1..] && b == [b[0]] + b[1..];
    }
  }

  lemma {:induction false} LexLeTrans(a: seq<nat>, b: seq<nat>, c: seq<nat>)
    requires LexLe(a, b) && LexLe(b, c)
    ensures LexLe(a, c)
  {
    if a != [] && b != [] && c != [] && a[0] == b[0] && b[0] == c[0] {
      LexLeTrans(a[1..], b[1..], c[1..]);
    }
  }

  lemma {:induction false} LexLeTotal(a: seq<nat>, b: seq<nat>)
    ensures LexLe(a, b) || LexLe(b, a)
  {
    if a != [] && b != [] && a[0] == b[0] {
      LexLeTotal(a[1..], b[1..]);
    }
  }

  /** Whether `version` satisfies an already parsed spec. */
  predicate SatisfiesSpec(version: string, s: Spec)
    requires Ranged(s.op) ==> Numeric(version) && Numeric(s.version)
  {
    match s.op
    case Latest => true
    case Exact => version == s.version
    case AtLeast => LexLe(Key(s.version), Key(version))
    case Caret => Key(version)[0] == Key(s.version)[0] && LexLe(Key(s.version), Key(version))
    case Tilde =>
      && Key(version)[0] == Key(s.version)[0] && Key(version)[1] == Key(s.version)[1]
      && LexLe(Key(s.version), Key(version))
  }

  /** The versions `version_satisfies` can compare against `spec` without
      `int()` raising. */
  predicate Comparable(version: string, spec: string)
  {
    var s := ParseVersionSpec(spec);
    Ranged(s.op) ==> Numeric(version) && Numeric(s.version)
  }

  /** `version_satisfies`: `latest` accepts every version, an exact spec is
      raw string equality with the stripped spec, a ranged spec accepts
      only keys at or above its own (`SameRelease` states what `^` and
      `~` keep besides). */
  predicate VersionSatisfies(version: string, spec: string)
    requires Comparable(version, spec)
    ensures ParseVersionSpec(spec).op == Latest ==> VersionSatisfies(version, spec)
    ensures ParseVersionSpec(spec).op == Exact ==> (VersionSatisfies(version, spec) <==> version == Strip(spec))
    ensures var s := ParseVersionSpec(spec);
            Ranged(s.op) && VersionSatisfies(version, spec) ==> LexLe(Key(s.version), Key(version))
  {
    SatisfiesSpec(version, ParseVersionSpec(spec))
  }

  /** `^` accepts only versions with the spec's major component, and `~`
      only those with its major and minor components. */
  lemma SameRelease(version: string, spec: string)
    requires Comparable(version, spec) && VersionSatisfies(version, spec)
    ensures var s := ParseVersionSpec(spec);
            s.op in {Caret, Tilde} ==> Key(version)[0] == Key(s.version)[0]
    ensures var s := ParseVersionSpec(spec);
            s.op == Tilde ==> Key(version)[1] == Key(s.version)[1]
  {
  }

  /** The whole acceptance rule, one operator at a time: `latest` accepts
      everything; an exact spec is raw string equality with no padding;
      `>=` accepts exactly the keys at or above the spec's; `^` those that
      also share its major component; `~` those that also share its major
      and minor components. */
  lemma SatisfiesByOperator(version: string, spec: string)
    requires Comparable(version, spec)
    ensures var s := ParseVersionSpec(spec);
      && (s.op == Latest ==> VersionSatisfies(version, spec))
      && (s.op == Exact ==> (VersionSatisfies(version, spec) <==> version == Strip(spec)))
      && (s.op == AtLeast ==> (VersionSatisfies(version, spec) <==> LexLe(Key(s.version), Key(version))))
      && (s.op == Caret ==>
            (VersionSatisfies(version, spec) <==>
               Key(version)[0] == Key(s.version)[0] && LexLe(Key(s.version), Key(version))))
      && (s.op == Tilde ==>
            (VersionSatisfies(version, spec) <==>
               && Key(version)[0] == Key(s.version)[0] && Key(version)[1] == Key(s.version)[1]
               && LexLe(Key(s.version), Key(version))))
  {
  }

  /** Ranged specs compare keys only, so two versions with the same padded key
      are accepted or rejected together. */
  lemma RangedSameKey(v1: string, v2: string, s: Spec)
    requires Ranged(s.op) && Numeric(v1) && Numeric(v2) && Numeric(s.version)
    requires Key(v1) == Key(v2)
    ensures SatisfiesSpec(v1, s) <==> SatisfiesSpec(v2, s)
  {
  }

  /** Every numeric version satisfies every spec built from itself. */
  lemma SatisfiesOwnSpec(v: string, op: Op)
    requires Numeric(v)
    ensures SatisfiesSpec(v, Spec(op, v))
  {
    LexLeRefl(Key(v));
  }

  /** `~w` is stricter than `^w`, which is stricter than `>=w`. */
  lemma TildeCaretAtLeast(v: string, w: string)
    requires Numeric(v) && Numeric(w)
    ensures SatisfiesSpec(v, Spec(Tilde, w)) ==> SatisfiesSpec(v, Spec(Caret, w))
    ensures SatisfiesSpec(v, Spec(Caret, w)) ==> SatisfiesSpec(v, Spec(AtLeast, w))
  {
  }

  /** `>=w` is closed upwards. */
  lemma AtLeastUpward(v: string, u: string, w: string)
    requires Numeric(v) && Numeric(u) && Numeric(w)
    requires SatisfiesSpec(v, Spec(AtLeast, w)) && LexLe(Key(v), Key(u))
    ensures SatisfiesSpec(u, Spec(AtLeast, w))
  {
    LexLeTrans(Key(w), Key(v), Key(u));
  }

  /** Every entry of `xs` can be keyed. */
  predicate AllNumeric(xs: seq<string>)
  {
    forall i :: 0 <= i < |xs| ==> Numeric(xs[i])
  }

  /** What `find_best_version` looks at for one entry: whether it satisfies
      the spec, and its key. */
  datatype Candidate = Candidate(ok: bool, key: seq<nat>)

  function Candidates(xs: seq<string>, spec: string): (cs: seq<Candidate>)
    requires AllNumeric(xs) && WfSpec(spec)
    ensures |cs| == |xs|
    ensures forall i :: 0 <= i < |xs| ==>
              Comparable(xs[i], spec) && cs[i] == Candidate(VersionSatisfies(xs[i], spec), Key(xs[i]))
  {
    if xs == [] then []
    else
      ComparableNumeric(xs[0], spec);
      [Candidate(VersionSatisfies(xs[0], spec), Key(xs[0]))] + Candidates(xs[1..], spec)
  }

  lemma ComparableNumeric(v: string, spec: string)
    requires Numeric(v) && WfSpec(spec)
    ensures Comparable(v, spec)
  {
  }

  /** `k` is the position `find_best_version` returns. Python sorts descending
      by key with a stable sort and returns the first satisfying entry: that is
      the earliest entry, in input order, among the satisfying entries of
      maximal key. */
  predicate IsBestAt(cs: seq<Candidate>, k: nat)
  {
    && k < |cs| && cs[k].ok
    && (forall j :: 0 <= j < |cs| && cs[j].ok ==> LexLe(cs[j].key, cs[k].key))
    && (forall j :: 0 <= j < k && cs[j].ok ==> !LexLe(cs[k].key, cs[j].key))
  }

  /** The position of `find_best_version`'s answer, if there is one. */
  function BestIndex(cs: seq<Candidate>): (r: Option<nat>)
    ensures r.None? <==> forall j :: 0 <= j < |cs| ==> !cs[j].ok
    ensures r.Some? ==> IsBestAt(cs, r.value)
  {
    if cs == [] then None
    else
      match BestIndex(cs[1..])
      case None =>
        BestFirst(cs);
        if cs[0].ok then Some(0) else None
      case Some(i) =>
        BestStep(cs, i);
        if cs[0].ok && LexLe(cs[i + 1].key, cs[0].key) then Some(0) else Some(i + 1)
  }

  /** The head against a tail in which nothing satisfies the spec. */
  lemma BestFirst(cs: seq<Candidate>)
    requires cs != []
    requires forall j :: 0 <= j < |cs[1..]| ==> !cs[1..][j].ok
    ensures cs[0].ok ==> IsBestAt(cs, 0)
    ensures !cs[0].ok ==> forall j :: 0 <= j < |cs| ==> !cs[j].ok
  {
    var t := cs[1..];
    assert forall j :: 1 <= j < |cs| ==> cs[j] == t[j - 1];
    LexLeRefl(cs[0].key);
  }

  /** One step of the scan: the best of the tail at `i` against the head. */
  lemma BestStep(cs: seq<Candidate>, i: nat)
    requires cs != []
    requires IsBestAt(cs[1..], i)
    ensures cs[0].ok && LexLe(cs[i + 1].key, cs[0].key) ==> IsBestAt(cs, 0)
    ensures !(cs[0].ok && LexLe(cs[i + 1].key, cs[0].key)) ==> IsBestAt(cs, i + 1)
  {
    var t := cs[1..];
    assert forall j :: 1 <= j < |cs| ==> cs[j] == t[j - 1];
    var k := cs[i + 1].key;
    assert cs[i + 1] == t[i];
    if cs[0].ok && LexLe(k, cs[0].key) {
      forall j | 0 <= j < |cs| && cs[j].ok
        ensures LexLe(cs[j].key, cs[0].key)
      {
        if j == 0 {
          LexLeRefl(cs[0].key);
        } else {
          assert t[j - 1].ok;
          LexLeTrans(cs[j].key, k, cs[0].key);
        }
      }
    } else {
      forall j | 0 <= j < |cs| && cs[j].ok
        ensures LexLe(cs[j].key, k)
      {
        if j == 0 {
          LexLeTotal(k, cs[0].key);
        } else {
          assert t[j - 1].ok;
        }
      }
      forall j | 0 <= j < i + 1 && cs[j].ok
        ensures !LexLe(k, cs[j].key)
      {
        if j > 0 {
          assert t[j - 1].ok;
        }
      }
    }
  }

  /** `find_best_version`: none exactly when nothing in the list satisfies
      the spec; otherwise a satisfying entry of the list whose key no other
      satisfying entry exceeds, and no earlier satisfying entry has the same
      key. */
  function FindBestVersion(available: seq<string>, spec: string): (r: Option<string>)
    requires AllNumeric(available) && WfSpec(spec)
    ensures r.None? <==> forall j :: 0 <= j < |available| ==> !VersionSatisfies(available[j], spec)
    ensures r.Some? ==> r.value in available && Numeric(r.value) && VersionSatisfies(r.value, spec)
    ensures r.Some? ==> forall j :: 0 <= j < |available| && VersionSatisfies(available[j], spec) ==>
                          LexLe(Key(available[j]), Key(r.value))
    ensures r.Some? ==> exists k :: 0 <= k < |available| && available[k] == r.value &&
                          forall j :: 0 <= j < k && VersionSatisfies(available[j], spec) ==>
                            Key(available[j]) != Key(r.value)
  {
    var cs := Candidates(available, spec);
    match BestIndex(cs)
    case None =>
      NoneMeans(available, spec);
      None
    case Some(i) =>
      BestAtMeans(available, spec, i);
      Some(available[i])
  }

  lemma NoneMeans(xs: seq<string>, spec: string)
    requires AllNumeric(xs) && WfSpec(spec)
    requires forall j :: 0 <= j < |xs| ==> !Candidates(xs, spec)[j].ok
    ensures forall j :: 0 <= j < |xs| ==> !VersionSatisfies(xs[j], spec)
  {
    var cs := Candidates(xs, spec);
    forall j | 0 <= j < |xs|
      ensures !VersionSatisfies(xs[j], spec)
    {
      assert !cs[j].ok;
    }
  }

  lemma BestAtMeans(xs: seq<string>, spec: string, i: nat)
    requires AllNumeric(xs) && WfSpec(spec) && IsBestAt(Candidates(xs, spec), i)
    ensures i < |xs| && Numeric(xs[i]) && VersionSatisfies(xs[i], spec)
    ensures forall j :: 0 <= j < |xs| && VersionSatisfies(xs[j], spec) ==> LexLe(Key(xs[j]), Key(xs[i]))
    ensures forall j :: 0 <= j < i && VersionSatisfies(xs[j], spec) ==> Key(xs[j]) != Key(xs[i])
  {
    var cs := Candidates(xs, spec);
    forall j | 0 <= j < |xs| && VersionSatisfies(xs[j], spec)
      ensures LexLe(Key(xs[j]), Key(xs[i]))
    {
      assert cs[j].ok;
    }
    forall j | 0 <= j < i && VersionSatisfies(xs[j], spec)
      ensures Key(xs[j]) != Key(xs[i])
    {
      assert cs[j].ok;
      LexLeRefl(cs[i].key);
    }
  }

  /** The key of the chosen version does not depend on the order of the list
      or on duplicates in it: only on which versions it holds. */
  lemma BestKeyIgnoresOrder(xs: seq<string>, ys: seq<string>, spec: string)
    requires AllNumeric(xs) && AllNumeric(ys) && WfSpec(spec)
    requires forall v :: v in xs <==> v in ys
    ensures FindBestVersion(xs, spec).None? <==> FindBestVersion(ys, spec).None?
    ensures FindBestVersion(xs, spec).Some? ==>
              Key(FindBestVersion(xs, spec).value) == Key(FindBestVersion(ys, spec).value)
  {
    var a := FindBestVersion(xs, spec);
    var b := FindBestVersion(ys, spec);
    if a.Some? {
      var ia :| 0 <= ia < |ys| && ys[ia] == a.value;
      assert b.Some?;
      var ib :| 0 <= ib < |xs| && xs[ib] == b.value;
      LexLeAntisym(Key(a.value), Key(b.value));
    }
    if b.Some? {
      var ib :| 0 <= ib < |xs| && xs[ib] == b.value;
      assert a.Some?;
    }
  }
}

=== FILE: utils_examples.dfy ===
/** The worked examples of the version rules, checked against the model. */
module UtilsExamples {
  import opened Common
  import opened Text
  import opened Utils

  /** A version written as digit components joined by dots is numeric and its
      parts are the components' values. */
  lemma PartsOfJoin(parts: seq<string>)
    requires |parts| >= 1 && forall i :: 0 <= i < |parts| ==> IsDigits(parts[i])
    ensures Numeric(Join(parts, '.'))
    ensures Parts(Join(parts, '.')) == Values(parts)
  {
    assert forall i :: 0 <= i < |parts| ==> '.' !in parts[i];
    SplitJoin(parts, '.');
  }

  lemma Key3(a: string, b: string, c: string)
    requires IsDigits(a) && IsDigits(b) && IsDigits(c)
    ensures Numeric(a + "." + b + "." + c)
    ensures Key(a + "." + b + "." + c) == [DigitsValue(a), DigitsValue(b), DigitsValue(c)]
  {
    assert Join([c], '.') == c;
    assert Join([b, c], '.') == b + "." + c;
    assert Join([a, b, c], '.') == a + "." + b + "." + c;
    PartsOfJoin([a, b, c]);
  }

  lemma Key2(a: string, b: string)
    requires IsDigits(a) && IsDigits(b)
    ensures Numeric(a + "." + b)
    ensures Key(a + "." + b) == [DigitsValue(a), DigitsValue(b), 0]
  {
    assert Join([b], '.') == b;
    assert Join([a, b], '.') == a + "." + b;
    PartsOfJoin([a, b]);
    var p := Parts(a + "." + b);
    assert p == [DigitsValue(a), DigitsValue(b)];
    var k := Pad(p);
    assert |k| == 3 && k[..2] == p && k[2] == 0;
    assert k == [DigitsValue(a), DigitsValue(b), 0];
  }

  lemma Digits()
    ensures DigitsValue("0") == 0 && DigitsValue("1") == 1 && DigitsValue("2") == 2
    ensures DigitsValue("3") == 3 && DigitsValue("5") == 5 && DigitsValue("9") == 9
  {
  }

  lemma Key1_2_0()
    ensures Numeric("1.2.0") && Key("1.2.0") == [1, 2, 0]
  {
    Digits();
    Key3("1", "2", "0");
    assert "1.2.0" == "1" + "." + "2" + "." + "0";
  }

  lemma Key1_9_9()
    ensures Numeric("1.9.9") && Key("1.9.9") == [1, 9, 9]
  {
    Digits();
    Key3("1", "9", "9");
    assert "1.9.9" == "1" + "." + "9" + "." + "9";
  }

  lemma Key2_0_0()
    ensures Numeric("2.0.0") && Key("2.0.0") == [2, 0, 0]
  {
    Digits();
    Key3("2", "0", "0");
    assert "2.0.0" == "2" + "." + "0" + "." + "0";
  }

  lemma Key0_9_9()
    ensures Numeric("0.9.9") && Key("0.9.9") == [0, 9, 9]
  {
    Digits();
    Key3("0", "9", "9");
    assert "0.9.9" == "0" + "." + "9" + "." + "9";
  }

  lemma Key1_2_5()
    ensures Numeric("1.2.5") && Key("1.2.5") == [1, 2, 5]
  {
    Digits();
    Key3("1", "2", "5");
    assert "1.2.5" == "1" + "." + "2" + "." + "5";
  }

  lemma Key1_3_0()
    ensures Numeric("1.3.0") && Key("1.3.0") == [1, 3, 0]
  {
    Digits();
    Key3("1", "3", "0");
    assert "1.3.0" == "1" + "." + "3" + "." + "0";
  }

  lemma Key1_0_0()
    ensures Numeric("1.0.0") && Key("1.0.0") == [1, 0, 0]
  {
    Digits();
    Key3("1", "0", "0");
    assert "1.0.0" == "1" + "." + "0" + "." + "0";
  }

  lemma Key1_5_0()
    ensures Numeric("1.5.0") && Key("1.5.0") == [1, 5, 0]
  {
    Digits();
    Key3("1", "5", "0");
    assert "1.5.0" == "1" + "." + "5" + "." + "0";
  }

  lemma Key1_2()
    ensures Numeric("1.2") && Key("1.2") == [1, 2, 0]
  {
    Digits();
    Key2("1", "2");
    assert "1.2" == "1" + "." + "2";
  }

  lemma ParseRanged(op: Op, v: string)
    requires Ranged(op) && (v == [] || !IsSpace(v[|v| - 1]))
    ensures ParseVersionSpec(OpText(op) + v) == Spec(op, v)
  {
    ParseFormat(Spec(op, v));
  }

  /** A ranged spec text written as operator then version means that
      operator applied to that version. */
  lemma RangedMeaning(op: Op, v: string, w: string)
    requires Ranged(op) && Numeric(v) && Numeric(w) && (w == [] || !IsSpace(w[|w| - 1]))
    ensures Comparable(v, OpText(op) + w)
    ensures VersionSatisfies(v, OpText(op) + w) <==> SatisfiesSpec(v, Spec(op, w))
  {
    ParseRanged(op, w);
  }

  lemma SpecExact(v: string)
    requires v == "1.0.0" || v == "2.0.0"
    ensures ParseVersionSpec(v) == Spec(Exact, v)
  {
    ParseFormat(Spec(Exact, v));
  }

  /** `^1.2.0` is the caret operator applied to `1.2.0`. */
  lemma ParseCaret()
    ensures ParseVersionSpec("^1.2.0") == Spec(Caret, "1.2.0")
  {
    assert "^1.2.0" == OpText(Caret) + "1.2.0";
    ParseRanged(Caret, "1.2.0");
  }

  /** `^1.2.0` accepts `1.2.0`. */
  lemma CaretAcceptsBase()
    ensures Comparable("1.2.0", "^1.2.0") && VersionSatisfies("1.2.0", "^1.2.0")
  {
    Key1_2_0();
    ParseCaret();
    LexLeRefl([1, 2, 0]);
  }

  /** `^1.2.0` accepts `1.9.9`. */
  lemma CaretAcceptsMinor()
    ensures Comparable("1.9.9", "^1.2.0") && VersionSatisfies("1.9.9", "^1.2.0")
  {
    Key1_2_0();
    Key1_9_9();
    ParseCaret();
    assert [1, 2, 0][1..] == [2, 0] && [1, 9, 9][1..] == [9, 9];
    assert LexLe([2, 0], [9, 9]);
  }

  /** `^1.2.0` rejects `2.0.0`: the major component differs. */
  lemma CaretRejectsMajor()
    ensures Comparable("2.0.0", "^1.2.0") && !VersionSatisfies("2.0.0", "^1.2.0")
  {
    Key1_2_0();
    Key2_0_0();
    ParseCaret();
  }

  /** `^1.2.0` rejects `0.9.9`. */
  lemma CaretRejectsLower()
    ensures Comparable("0.9.9", "^1.2.0") && !VersionSatisfies("0.9.9", "^1.2.0")
  {
    Key1_2_0();
    Key0_9_9();
    ParseCaret();
  }

  /** `~1.2.0` is the tilde operator applied to `1.2.0`. */
  lemma ParseTilde()
    ensures ParseVersionSpec("~1.2.0") == Spec(Tilde, "1.2.0")
  {
    assert "~1.2.0" == OpText(Tilde) + "1.2.0";
    ParseRanged(Tilde, "1.2.0");
  }

  /** `~1.2.0` accepts `1.2.5`. */
  lemma TildeAcceptsPatch()
    ensures Comparable("1.2.5", "~1.2.0") && VersionSatisfies("1.2.5", "~1.2.0")
  {
    Key1_2_0();
    Key1_2_5();
    ParseTilde();
    assert [1, 2, 0][1..] == [2, 0] && [1, 2, 5][1..] == [2, 5];
    assert [2, 0][1..] == [0] && [2, 5][1..] == [5];
    assert LexLe([0], [5]);
  }

  /** `~1.2.0` rejects `1.3.0`: the minor component differs. */
  lemma TildeRejectsMinor()
    ensures Comparable("1.3.0", "~1.2.0") && !VersionSatisfies("1.3.0", "~1.2.0")
  {
    Key1_2_0();
    Key1_3_0();
    ParseTilde();
  }

  /** `>=1.2.0` is the at-least operator applied to `1.2.0`. */
  lemma ParseAtLeast()
    ensures ParseVersionSpec(">=1.2.0") == Spec(AtLeast, "1.2.0")
  {
    assert ">=1.2.0" == OpText(AtLeast) + "1.2.0";
    ParseRanged(AtLeast, "1.2.0");
  }

  /** `>=` pads both sides before comparing, so `1.2` meets `>=1.2.0`. */
  lemma AtLeastPads()
    ensures Comparable("1.2", ">=1.2.0") && VersionSatisfies("1.2", ">=1.2.0")
  {
    Key1_2();
    Key1_2_0();
    ParseAtLeast();
    LexLeRefl([1, 2, 0]);
  }

  /** `>=` compares lexicographically, so `2.0.0` meets `>=1.9.9`. */
  lemma AtLeastLexicographic()
    ensures Comparable("2.0.0", ">=1.9.9") && VersionSatisfies("2.0.0", ">=1.9.9")
  {
    Key1_9_9();
    Key2_0_0();
    ParseAtLeast199();
  }

  lemma ParseAtLeast199()
    ensures ParseVersionSpec(">=1.9.9") == Spec(AtLeast, "1.9.9")
  {
    assert ">=1.9.9" == OpText(AtLeast) + "1.9.9";
    ParseRanged(AtLeast, "1.9.9");
  }

  /** An exact spec compares raw strings: `1.0` does not meet `1.0.0`. */
  lemma ExactIsNotPadded()
    ensures Comparable("1.0", "1.0.0") && !VersionSatisfies("1.0", "1.0.0")
  {
    SpecExact("1.0.0");
    var s := ParseVersionSpec("1.0.0");
    assert s.op == Exact && !Ranged(s.op);
    assert Comparable("1.0", "1.0.0");
    assert |"1.0"| != |"1.0.0"|;
  }

  /** `>=1.2.0` rejects `1.0.0`. */
  lemma AtLeastRejectsLower()
    ensures Numeric("1.0.0") && WfSpec(">=1.2.0")
    ensures Comparable("1.0.0", ">=1.2.0") && !VersionSatisfies("1.0.0", ">=1.2.0")
  {
    Key1_0_0();
    Key1_2_0();
    ParseAtLeast();
    assert VersionSatisfies("1.0.0", ">=1.2.0") == LexLe([1, 2, 0], [1, 0, 0]);
    MinorBelow();
  }

  lemma MinorBelow()
    ensures !LexLe([1, 2, 0], [1, 0, 0])
  {
    assert [1, 2, 0][1..] == [2, 0] && [1, 0, 0][1..] == [0, 0];
  }

  /** `>=1.2.0` accepts `2.0.0`. */
  lemma AtLeastAcceptsHigher()
    ensures Comparable("2.0.0", ">=1.2.0") && VersionSatisfies("2.0.0", ">=1.2.0")
  {
    Key2_0_0();
    Key1_2_0();
    ParseAtLeast();
  }

  /** Of three versions, when the first fails the spec, the second meets it
      and the second has a larger key than the third, the second is chosen. */
  lemma BestOfThree(xs: seq<string>, spec: string)
    requires |xs| == 3 && AllNumeric(xs) && WfSpec(spec)
    requires !VersionSatisfies(xs[0], spec) && VersionSatisfies(xs[1], spec)
    requires !LexLe(Key(xs[1]), Key(xs[2]))
    ensures FindBestVersion(xs, spec) == Some(xs[1])
  {
    var cs := Candidates(xs, spec);
    assert !cs[0].ok && cs[1].ok && !LexLe(cs[1].key, cs[2].key);
    SecondOfThree(cs);
  }

  lemma SecondOfThree(cs: seq<Candidate>)
    requires |cs| == 3 && !cs[0].ok && cs[1].ok && !LexLe(cs[1].key, cs[2].key)
    ensures BestIndex(cs) == Some(1)
  {
    var k := BestIndex(cs).value;
    assert LexLe(cs[1].key, cs[k].key);
  }

  /** `{1.0.0, 2.0.0, 1.5.0}` with `>=1.2.0` gives `2.0.0`. */
  lemma FindBestAtLeast()
    ensures AllNumeric(["1.0.0", "2.0.0", "1.5.0"]) && WfSpec(">=1.2.0")
    ensures FindBestVersion(["1.0.0", "2.0.0", "1.5.0"], ">=1.2.0") == Some("2.0.0")
  {
    Key1_0_0();
    Key2_0_0();
    Key1_5_0();
    Key1_2_0();
    AtLeastRejectsLower();
    AtLeastAcceptsHigher();
    MajorAbove();
    AllNumericThree("1.0.0", "2.0.0", "1.5.0");
    BestOfThree(["1.0.0", "2.0.0", "1.5.0"], ">=1.2.0");
  }

  lemma AllNumericThree(a: string, b: string, c: string)
    requires Numeric(a) && Numeric(b) && Numeric(c)
    ensures AllNumeric([a, b, c])
  {
  }

  lemma MajorAbove()
    ensures !LexLe([2, 0, 0], [1, 5, 0])
  {
  }

  /** The exact spec `2.0.0` rejects `1.0.0`. */
  lemma ExactRejectsOther()
    ensures WfSpec("2.0.0") && Comparable("1.0.0", "2.0.0") && !VersionSatisfies("1.0.0", "2.0.0")
  {
    SpecExact("2.0.0");
    var s := ParseVersionSpec("2.0.0");
    assert s.op == Exact && !Ranged(s.op);
    assert "1.0.0"[0] != "2.0.0"[0];
  }

  /** A one-entry list whose entry fails the spec yields nothing. */
  lemma NoneOfOne(v: string, spec: string)
    requires Numeric(v) && WfSpec(spec) && Comparable(v, spec) && !VersionSatisfies(v, spec)
    ensures AllNumeric([v]) && FindBestVersion([v], spec) == None
  {
    var xs := [v];
    assert forall j :: 0 <= j < |xs| ==> xs[j] == v;
    assert AllNumeric(xs);
    assert forall j :: 0 <= j < |xs| ==> !VersionSatisfies(xs[j], spec);
  }

  /** `{1.0.0}` with the exact spec `2.0.0` gives nothing. */
  lemma FindBestExactMissing()
    ensures AllNumeric(["1.0.0"]) && WfSpec("2.0.0")
    ensures FindBestVersion(["1.0.0"], "2.0.0") == None
  {
    Key1_0_0();
    ExactRejectsOther();
    NoneOfOne("1.0.0", "2.0.0");
  }
}
